=== FILE: README.md ===
# Interval annotation and matching, modelled in Dafny

Two small desktop tools share one data format.

**The annotator** plays a video. Key X marks the start of an interval at the current playback time. Key C closes the interval at the current time, puts the earlier bound first, and appends one row of two `HH:MM:SS` cells to `output.csv`.

**The matcher** does three things:

- It loads two such files, `film.csv` and `game.csv`. Each is sorted by start time, and every interval is numbered by its position.
- It keeps a match matrix from film ids to lists of game ids. The user builds it by clicking one row in each scrollable list and pressing X (link) or C (unlink).
- It mirrors every link in `matches.csv`, a log of four time cells per row. That log is replayed at start-up.

The model covers the part of both programs that is not drawing or video playback:

- **Time codec** (`timecodec.dfy`): `parse_time`, the two `format_time` variants, and the pieces of Python they rest on. Those are `str.strip`, `str.split(":")`, `int()`, `float()` on plain decimals, `int()` on a float, and `f"{n:02d}"`.
- **Interval store** (`intervalstore.dfy`): `load_csv`, its stable sort, id assignment, and the lookup of an interval by its bounds.
- **Scroll lists** (`scrolllists.dfy`): the `ScrollList` offset clamping, `visible_range`, and the row a click selects.
- **Match log** (`matchlog.dfy`): `append_match_csv` and `remove_match_csv` over the rows of `matches.csv`.
- **Matcher** (`matcher.dfy`): the matcher's state, `match_selected`, `unmatch_selected_pair`, `load_matches_csv`, start-up, `handle_list_click` and the event loop.
- **Annotator** (`annotator.dfy`): the annotator's state, the X and C keys, the wheel, and what its output file reloads as.

Some modelling choices apply throughout:

- Times are `real` seconds.
- Files are sequences of data rows, and an absent file is `None`. The header line is not a row.
- The current playback time and whether a click hit a list's rectangle are inputs to an event.
- A time cell that does not parse makes loading fail with `MalformedTime`. This is the `ValueError` that stops the Python program at start-up.

Some behaviours of the code are easy to misread; the model follows the code:

- **Log format:** the match log is written with the three-field `VideoPanel.format_time`, so every cell is `HH:MM:SS`, even below one hour.
- **Repeated match:** `match_selected` appends a log row even when the pair is already linked, so the log can hold duplicate rows. The matrix does not change.
- **Unmatch flags:** `unmatch_selected_pair` clears both `matched` flags unconditionally, even when the film or the game is still linked elsewhere.
- **Fractional bounds:** a link whose intervals have fractional bounds is written with truncated times. On reload the lookup compares exact bounds, so such a link is not restored.
- **Lookup:** it finds the first interval with equal bounds, not necessarily the one that was linked.
- **Mouse buttons:** any mouse button, the wheel included, selects the row `get_clicked_index` computes. When the list is scrolled by a part of a row, that is not always the row drawn under the pointer (see Findings).

## Model

| member | source | states |
|---|---|---|
| TimeCodec.Strip | IntervalMatchingApp.py:512 | the stripped text has no whitespace at either edge and is no longer than the input |
| TimeCodec.StripShape | IntervalMatchingApp.py:512 | the stripped text is a contiguous slice of the input, and everything cut off before and after it is whitespace |
| TimeCodec.Split | IntervalMatchingApp.py:514 | `split(":")` yields at least one colon-free piece, and joining the pieces with colons gives the input back |
| TimeCodec.SplitJoin | IntervalMatchingApp.py:514 | splitting colon-free pieces joined by colons gives exactly those pieces |
| TimeCodec.Pad2 | IntervalMatchingApp.py:354 | `f"{n:02d}"` is at least two characters, exactly two for `0 <= n < 100`, all digits after the first, and the first is a digit or, for a negative number, the minus sign; no zero pads a longer text: three or more characters never start with `0`, and a negative number's first digit is never `0`; Pad2Clean and ParseIntPad2 state that it reads back |
| TimeCodec.ParseIntPad2 | IntervalMatchingApp.py:514 | `int()` reads every two-digit-padded integer back as itself, negative ones included |
| TimeCodec.ParseInts | IntervalMatchingApp.py:514 | `list(map(int, …))` succeeds exactly when every piece is an integer, and then yields each piece's value in order |
| TimeCodec.ParseTimeColonFields | IntervalMatchingApp.py:511-517 | a stripped field with a colon fails exactly when a piece is not an integer; three pieces count as hours, minutes and seconds; any other count counts as minutes and seconds, extra pieces ignored |
| TimeCodec.ParseThreeFields | IntervalMatchingApp.py:511-516 | `H:M:S` built from any three integers reads as `3600H + 60M + S` |
| TimeCodec.ParseTwoFields | IntervalMatchingApp.py:511-517 | `M:S` built from any two integers reads as `60M + S` |
| TimeCodec.DecimalTruncatesToWholePart | IntervalMatchingApp.py:518 | a field with no colon, `w.f`, reads as a float whose truncation is its integer part `w` |
| TimeCodec.ParseTimeDecimal | IntervalMatchingApp.py:511-518 | a field with no colon, an optional sign then `w.f` (either part may be empty, not both), reads as the integer part plus the fraction, negated under `-` |
| TimeCodec.ParseTimeWhole | IntervalMatchingApp.py:511-518 | a field of digits with no dot and an optional sign reads as their value, negated under `-` |
| TimeCodec.ParseTimeDecimalAccepts | IntervalMatchingApp.py:511-518 | the converse of the two rows above: every colon-free field `parse_time` accepts is, once stripped, an optional `+` or `-`, digits, and optionally a dot and more digits, with at least one digit in all |
| TimeCodec.SignedMagnitudeShape | IntervalMatchingApp.py:518 | text whose unsigned part reads as a decimal is an optional sign, digits, and optionally a dot and digits, with at least one digit |
| TimeCodec.MagnitudeParts | IntervalMatchingApp.py:518 | an unsigned text that reads as a decimal splits into digits, and optionally a dot and digits, not both empty |
| TimeCodec.Trunc | IntervalMatchingApp.py:350 | `int()` on a float rounds toward zero: down for non-negative values, up for negative ones |
| TimeCodec.TruncMonotone | IntervalMatchingApp.py:350 | truncation never reverses the order of two times |
| TimeCodec.FormatHms | IntervalMatchingApp.py:349-354 | `VideoPanel.format_time` ends in `:MM:SS`, two digits each, after an hour field of at least two characters; FormatHmsFields and ParseFormatHms state the fields' values and the round trip |
| TimeCodec.FormatHmsFields | IntervalMatchingApp.py:349-354 | `VideoPanel.format_time` writes three fields; minutes and seconds are two digits below 60; the three recombine to the truncated time; for a non-negative time the hour field is at least two digits |
| TimeCodec.ParseFormatHms | IntervalMatchingApp.py:349-354 | `parse_time` reads back what `VideoPanel.format_time` wrote as the truncated time, for every time, negative ones included |
| TimeCodec.ParseFormatHmsWhole | IntervalMatchingApp.py:349-354 | for a non-negative time the round trip is `floor`, so it is exact on whole seconds |
| TimeCodec.FormatClock | IntervalMatchingApp.py:126-134 | `ControlBar.format_time` ends in `:SS` after a minutes field, and from one hour of truncated time on it has an hour field too; FormatClockFields and ParseFormatClock state the field count and the round trip |
| TimeCodec.ClockText | IntervalMatchingApp.py:127-134 | the text for a whole number of seconds ends in `:SS`, and from 3600 seconds on has three fields; ParseClockTextMinutes states that below one hour it reads back |
| TimeCodec.ParseClockTextMinutes | IntervalMatchingApp.py:127-134 | below one hour, the two-field text for `s` seconds reads back as `s` |
| TimeCodec.FormatClockFields | IntervalMatchingApp.py:126-134 | `ControlBar.format_time` writes two fields below one hour of truncated time and three fields from one hour on |
| TimeCodec.ParseFormatClock | IntervalMatchingApp.py:126-134 | `parse_time` reads back what `ControlBar.format_time` wrote as `floor` of a non-negative time, with either field count |
| TimeCodec.FormatClockNegativeLosesHour | IntervalMatchingApp.py:126-134 | below zero the hour field is dropped: minus five seconds is written as `59:55` and reads back as 3595 |
| IntervalStore.ParseRows | IntervalMatchingApp.py:503-506 | the rows load exactly when every cell parses, and then each row yields its pair of parsed bounds, in file order |
| IntervalStore.Sort | IntervalMatchingApp.py:508 | the result is ordered by start and is a permutation of the input |
| IntervalStore.SortIsTheStableSort | IntervalMatchingApp.py:508 | any ordering by start that keeps the file order of every run of equal starts equals `Sort`, so `Sort` is Python's stable sort |
| IntervalStore.SortOfSorted | IntervalMatchingApp.py:508 | sorting a list already in start order changes nothing |
| IntervalStore.AssignIds | IntervalMatchingApp.py:425-432 | every interval gets its position as id, is unmatched and keeps its bounds |
| IntervalStore.LoadStore | IntervalMatchingApp.py:496-509 | an absent file loads as no intervals; a present one loads exactly when its cells parse, as a start-ordered permutation of its rows, numbered by position and unmatched |
| IntervalStore.LoadStoreStable | IntervalMatchingApp.py:508 | rows with equal starts keep their file order after loading |
| IntervalStore.LoadSortedRows | IntervalMatchingApp.py:496-509 | a file already in start order loads in file order, numbered from the top |
| IntervalStore.FindByBounds | IntervalMatchingApp.py:480-481 | the lookup returns the first interval whose bounds equal the ones searched for, and none exactly when no interval has them |
| IntervalStore.FindIgnoresFlags | IntervalMatchingApp.py:480-481 | the lookup depends only on bounds, not on `matched` flags set by earlier rows |
| IntervalStore.LogRow | DualAnnotationTool.py:496-499 | the annotator's row is `VideoPanel.format_time` of each bound; ParseLogRow states that each cell reads back as its bound cut to whole seconds |
| IntervalStore.ParseLogRow | DualAnnotationTool.py:496-499 | each cell of the annotator's row reads back as its bound cut to whole seconds |
| IntervalStore.ParseLogRows | DualAnnotationTool.py:496-499 | rows written by `format_time` parse back as their intervals cut to whole seconds |
| IntervalStore.TruncSpanOrdered | DualAnnotationTool.py:483-487 | cutting to whole seconds keeps the earlier bound first |
| ScrollLists.NewList | IntervalMatchingApp.py:33-37 | a new list has row height 28 and offset 0 |
| ScrollLists.MaxOffset | IntervalMatchingApp.py:44 | the scroll limit is the rows' overhang beyond the rectangle, or 0 when they fit |
| ScrollLists.Scroll | IntervalMatchingApp.py:43-45 | the offset moves by `delta` and is clamped into `[0, limit]`; nothing else about the list changes |
| ScrollLists.ScrollNearest | IntervalMatchingApp.py:43-45 | the clamped offset is the allowed offset nearest to the requested one |
| ScrollLists.ScrollByZero | IntervalMatchingApp.py:43-45 | a zero scroll leaves a list unchanged exactly when its offset is already in range |
| ScrollLists.ScrollUndo | IntervalMatchingApp.py:43-45 | a scroll that was not clamped is undone by the opposite scroll |
| ScrollLists.ScrollMonotone | IntervalMatchingApp.py:43-45 | a larger delta never leaves the list higher up |
| ScrollLists.VisibleRange | IntervalMatchingApp.py:47-50 | the first visible row is the one whose band contains the offset, and the count is the number of whole rows that fit in the height |
| ScrollLists.ClickedIndex | IntervalMatchingApp.py:578-586 | a click selects a row exactly when it hits the rectangle and its height plus the offset lies within the rows; the selected row is the one whose band, shifted by the offset, contains the click |
| ScrollLists.ClickedRow | IntervalMatchingApp.py:667-674 | a selected row is a real row, and the click lies in the band where `draw_scroll_list` places that row, counting from the first visible row; a row in the strip below the last whole row is placed there but not drawn |
| ScrollLists.ClickedRowIsDrawnRow | IntervalMatchingApp.py:667-674 | a click inside the band where row `i` is drawn selects row `i` |
| ScrollLists.AlignedClicksAgree | IntervalMatchingApp.py:578-586 | while the offset is a whole number of rows, the code's index and the drawn row agree |
| ScrollLists.ClickBelowDrawnRow | IntervalMatchingApp.py:578-586 | a 730-pixel list of 30 rows, scrolled to its end, sits at offset 110; a click inside drawn row 3 selects row 4 |
| MatchLog.FormatMatchRow | IntervalMatchingApp.py:706-711 | the logged row is `VideoPanel.format_time` of the film's and the game's bounds; ParseMatchRow states that each cell reads back as its bound cut to whole seconds |
| MatchLog.ParseMatchRow | IntervalMatchingApp.py:706-711 | every cell of a logged row reads back as its bound cut to whole seconds |
| MatchLog.AppendRow | IntervalMatchingApp.py:692-711 | after appending, the log exists and holds its old rows followed by the new row |
| MatchLog.Keep | IntervalMatchingApp.py:729-735 | the kept rows are rows of the log, none of them matching the key after stripping |
| MatchLog.KeepCounts | IntervalMatchingApp.py:729-735 | every row that does not match the key survives as often as it occurred, and a matching row never survives |
| MatchLog.KeepAppend | IntervalMatchingApp.py:729-735 | filtering distributes over concatenation, so the surviving rows keep their order |
| MatchLog.KeepNoMatch | IntervalMatchingApp.py:729-735 | when no row matches, the file is rewritten unchanged |
| MatchLog.KeepIdempotent | IntervalMatchingApp.py:729-735 | removing the same pair twice is removing it once |
| MatchLog.RemoveRows | IntervalMatchingApp.py:713-741 | with no file nothing happens; otherwise the file afterwards holds only rows of the old file that do not match the key, and every row that does not match survives as often as it occurred |
| MatchLog.KeepCountsAll | IntervalMatchingApp.py:729-735 | for every row at once: a matching row never survives, any other row survives as often as it occurred |
| MatchLog.RemoveRowsKeepsOrder | IntervalMatchingApp.py:729-735 | removing rows from a file split in two is removing them from each part and joining the results, so the survivors keep their file order |
| MatchLog.RemoveAppended | IntervalMatchingApp.py:692-741 | removing the row just appended leaves the older rows minus those matching it |
| MatchLog.RemoveAppendedRestores | IntervalMatchingApp.py:692-741 | if no older row matched, removing the row just appended restores the log |
| Matcher.AddLink | IntervalMatchingApp.py:598-599 | the game is in the list afterwards; it is appended only if missing; a list without repeats stays so |
| Matcher.AddLinkTwice | IntervalMatchingApp.py:598-599 | linking the same game twice is linking it once |
| Matcher.RemoveFirst | IntervalMatchingApp.py:627-628 | only the game is affected; an absent game leaves the list as it is, and a present one shortens it by one |
| Matcher.RemoveFirstNoDup | IntervalMatchingApp.py:627-628 | in a list without repeats, the game is gone afterwards and no repeat appears |
| Matcher.RemoveAdded | IntervalMatchingApp.py:598-628 | removing a game just added to a list gives the list back |
| Matcher.SetMatched | IntervalMatchingApp.py:601-602 | only the chosen interval's flag changes; bounds and ids stay as they were |
| Matcher.LinkPair | IntervalMatchingApp.py:487-491 | linking adds the game to the film's list, marks both matched, keeps the state valid and changes nothing else |
| Matcher.UnlinkPair | IntervalMatchingApp.py:627-631 | unlinking drops the game from the film's list if present, marks both unmatched, keeps the state valid and changes nothing else |
| Matcher.MatchSelected | IntervalMatchingApp.py:588-611 | without both selections nothing happens; otherwise both selections clear, the log gains exactly the pair's row at its end, and the state stays valid; both scroll lists keep their offsets, since `set_items` only replaces the items |
| Matcher.MatchSelectedLinks | IntervalMatchingApp.py:598-599 | after a match the film's list holds its old games plus the selected one; every other film's list is unchanged |
| Matcher.MatchSelectedFlags | IntervalMatchingApp.py:601-602 | after a match both selected intervals are matched; every other interval is unchanged |
| Matcher.UnmatchSelected | IntervalMatchingApp.py:616-640 | without both selections nothing happens; otherwise both selections clear, the log loses the pair's rows, and the state stays valid; both scroll lists keep their offsets, since `set_items` only replaces the items |
| Matcher.UnmatchSelectedLinks | IntervalMatchingApp.py:627-628 | after an unmatch the game is gone from the film's list, its other games stay, and every other film's list is unchanged |
| Matcher.UnmatchSelectedFlags | IntervalMatchingApp.py:630-631 | after an unmatch both selected intervals are unmatched; every other interval is unchanged |
| Matcher.UnmatchClearsFlagDespiteOtherLinks | IntervalMatchingApp.py:627-631 | a film still linked to another game is nevertheless marked unmatched |
| Matcher.MatchPair | IntervalMatchingApp.py:588-611 | selecting a pair and pressing X adds the link, appends the pair's row, and keeps every interval's bounds |
| Matcher.UnmatchPair | IntervalMatchingApp.py:616-640 | selecting a pair and pressing C removes the link if present and filters the pair's rows from the log |
| Matcher.MatchTwice | IntervalMatchingApp.py:598-611 | matching a pair again leaves the matrix as it was but appends a second identical row |
| Matcher.MatchThenUnmatch | IntervalMatchingApp.py:588-640 | for a pair that was neither linked nor logged, match then unmatch restores both the matrix and the log |
| Matcher.ResolveRow | IntervalMatchingApp.py:474-483 | a log row resolves exactly when its four cells parse; a pair it names has exactly the parsed bounds and is the first film and the first game with those bounds; no pair means the film or the game has no such bounds |
| Matcher.ReplayRow | IntervalMatchingApp.py:472-491 | replaying one row succeeds exactly when its cells parse and keeps the state valid, with bounds, selections, log and lists unchanged |
| Matcher.Replay | IntervalMatchingApp.py:466-491 | replaying the log succeeds exactly when every row parses; the state stays valid, and bounds, selections and lists are unchanged |
| Matcher.ReplayLinks | IntervalMatchingApp.py:466-491 | after replay, a film is linked to a game exactly when it was before or some row of the log resolves to that pair |
| Matcher.ReplayNoDup | IntervalMatchingApp.py:487-488 | however often a pair is logged, no film's list holds a game twice after replay |
| Matcher.ReplayRowMarks | IntervalMatchingApp.py:484-491 | one replayed row flags both intervals of the pair it resolves to as matched and clears no flag |
| Matcher.ReplayKeepsMatched | IntervalMatchingApp.py:466-491 | replaying the log never clears a `matched` flag |
| Matcher.ReplayMarksResolved | IntervalMatchingApp.py:466-491 | after replaying the log, both intervals of every pair some row resolves to are flagged matched |
| Matcher.WholeSecondRowReadsBack | IntervalMatchingApp.py:474-481 | a logged row of whole-second spans parses, and its cells read back as exactly those spans |
| Matcher.WholeSecondRowResolves | IntervalMatchingApp.py:474-481 | a pair with whole-second bounds, once logged, resolves on reload to the first film and the first game with the same bounds: no earlier one has them |
| Matcher.FractionalRowMissesFilm | IntervalMatchingApp.py:474-481 | a pair whose film has a fractional bound, once logged, never resolves to that film on reload |
| Matcher.EmptyLinks | IntervalMatchingApp.py:438 | the fresh matrix has an empty list for every film id and no other key |
| Matcher.Fresh | IntervalMatchingApp.py:438-461 | right after loading, the state is valid, nothing is selected, every film's list is empty, and both scroll lists are new: row height 28, offset 0 |
| Matcher.Init | IntervalMatchingApp.py:422-468 | start-up succeeds exactly when both interval files and every log row parse; the state is then valid, with nothing selected, the intervals exactly those the files load as, both in start order, the log kept, and both scroll lists new, at offset 0 with row height 28; with a log, film `f` is linked to game `g` exactly when some log row resolves to that pair, and without one every film's list is empty |
| Matcher.ReplayFromFresh | IntervalMatchingApp.py:466-491 | replaying a log over a state with no links links each film to exactly the games some row resolves it to |
| Matcher.InitWithoutLog | IntervalMatchingApp.py:463-468 | without a match log every film's list starts empty |
| Matcher.HandleListClick | IntervalMatchingApp.py:562-586 | each list for which `get_clicked_index` finds a row selects that row, the other selection stays, and nothing else changes |
| Matcher.ClickSelectsOffsetBand | IntervalMatchingApp.py:578-586 | a click on the film list selects film `i` exactly when its height plus the offset lies in row `i`'s band |
| Matcher.ClickInDrawnFilmSelectsNext | IntervalMatchingApp.py:562-586 | with 30 films in a 730-pixel list scrolled to its end, a click inside drawn film row 3 selects film 4 |
| Matcher.HandleListClickIntended | IntervalMatchingApp.py:667-674 | the corrected click handler selects, in each list the click lands on, the row drawn under the pointer, and changes nothing else |
| Matcher.ClickOnDrawnFilmSelectsIt | IntervalMatchingApp.py:667-674 | with the corrected handler, a click inside the band where film row `i` is drawn selects film `i` |
| Matcher.Step | IntervalMatchingApp.py:531-557 | every event keeps the state valid and the bounds unchanged; X is exactly `match_selected` and C exactly `unmatch_selected_pair`; a mouse event changes neither links, log nor intervals, and selects in each list the row `get_clicked_index` finds, keeping the old selection when it finds none; button 4 then scrolls both lists up by 28 pixels and button 5 down by 28, clamped to each list's range; any other button leaves both lists unscrolled |
| Matcher.Run | IntervalMatchingApp.py:531-557 | any run of events keeps the state valid and every interval's bounds unchanged |
| Annotator.Start | DualAnnotationTool.py:414-430 | the annotator starts with no intervals, no pending start and no marker, and with a new interval list at offset 0 with row height 28; the output file keeps its rows; the invariant holds |
| Annotator.MarkStart | DualAnnotationTool.py:472-475 | key X makes `t` the pending start and shows the marker, leaving intervals, file and list alone |
| Annotator.MarkStartInv | DualAnnotationTool.py:472-475 | key X keeps the invariant |
| Annotator.MarkStartOverwrites | DualAnnotationTool.py:472-475 | a second X before C replaces the first start |
| Annotator.Close | DualAnnotationTool.py:483-487 | the closed interval has its earlier bound first, and its bounds are exactly the pending start and the current time |
| Annotator.CloseUnique | DualAnnotationTool.py:483-487 | that ordered interval is the only one with those two bounds |
| Annotator.MarkEnd | DualAnnotationTool.py:479-506 | with no pending start, key C does nothing; otherwise it appends one ordered interval holding the start and the time, appends its row to the file, clears the start and the marker, and keeps earlier intervals and the list |
| Annotator.MarkEndInv | DualAnnotationTool.py:479-506 | key C keeps the invariant that the file ends with one row per interval, in order |
| Annotator.StartThenEnd | DualAnnotationTool.py:472-488 | X at `s` then C at `e` stores the interval between them, earlier bound first |
| Annotator.Step | DualAnnotationTool.py:447-506 | every event keeps the invariant and only appends to the intervals and to the file; X is exactly MarkStart and C exactly MarkEnd at the player's time; button 4 scrolls the interval list up by one row height and button 5 down by one, clamped, changing nothing else; any other button changes nothing |
| Annotator.WheelScroll | DualAnnotationTool.py:463-467 | a wheel turn moves only the interval list's offset, clamped to its range, and keeps the invariant, the intervals and the file |
| Annotator.SessionReloads | DualAnnotationTool.py:496-499 | the rows written this session load, through the interval loader, as the session's intervals cut to whole seconds in stable start order, each with its earlier bound first |
| Annotator.LogRowsReload | DualAnnotationTool.py:496-499 | rows written by `format_time` load as their intervals cut to whole seconds, sorted and numbered |

## Left out

- Drawing, fonts, colours, the video panels, playback, seeking, audio and the close button are left out because they are presentation and media handling. This includes `seek_to_second` and the panel `handle_mouse_event` calls on a click.
- `get_current_time` is left out because it reads the video clock. The playback time is an input of the X and C events.
- `collidepoint` is left out because it is screen geometry. Whether a click hit a list's rectangle is an input of the click.
- `pygame.QUIT` and Escape are left out because they only stop the loop. Both programs' `update` and `set_items` calls are left out because the model's lists take their row count from the owner.
- File I/O, CSV quoting, flushing and header rows are left out because files are modelled as sequences of data rows. A missing column, which would raise `KeyError`, is not modelled either.
- The `try`/`except` around the annotator's CSV write is left out because a failed write is an I/O fault. The model always writes the row.
- `print` output is left out because it has no effect on state.
- TimeCodec.ParseInt: does not accept Unicode digits or `_` separators, which Python's `int()` does, because the files hold ASCII digits.
- TimeCodec.ParseDecimal: does not accept Unicode digits, exponents, `inf`, `nan` or `_`, which Python's `float()` does, because the tools write only `HH:MM:SS`.
- Floating-point rounding is left out because `float()` is modelled as exact decimal arithmetic on reals.
- TimeCodec.ParseTime: has no contract of its own. Its behaviour is stated by ParseTimeColonFields, ParseThreeFields, ParseTwoFields, ParseTimeDecimal, ParseTimeWhole, ParseTimeDecimalAccepts, DecimalTruncatesToWholePart and the round-trip lemmas.
- TimeCodec.Strip: its own contract states only that no edge whitespace is left and the length does not grow, because an existential in every caller's context is costly. StripShape states that only edge whitespace is removed.

## Findings

| source | as written | input that shows it | evidently intended | confidence | as-written member | corrected member |
|---|---|---|---|---|---|---|
| IntervalMatchingApp.py:578-586 | the clicked row is `(y - top + offset) // 28`, while `draw_scroll_list` draws row `i` at `top + (i - offset // 28) * 28`; the two disagree whenever the offset is not a multiple of 28, which the clamp at `len * 28 - h` produces | a list 730 pixels high with 30 rows, scrolled to its end (offset 110); a click at 5 pixels below the top lies inside the band where row 3 is drawn | the click selects the row drawn under the pointer (row 3) | not executed | ScrollLists.ClickedIndex, ScrollLists.ClickBelowDrawnRow, Matcher.HandleListClick, Matcher.ClickInDrawnFilmSelectsNext | ScrollLists.ClickedRow, ScrollLists.ClickedRowIsDrawnRow, Matcher.HandleListClickIntended, Matcher.ClickOnDrawnFilmSelectsIt |

=== FILE: annotator.dfy ===
/**
 * The single-source annotator: key X marks a start at the current
 * playback time, key C closes the interval at the current time, stores
 * it with its bounds in order and appends one `HH:MM:SS` row to
 * `output.csv`. The playback time is an input to each key press.
 */
module Annotator {
  import opened Wrappers
  import opened TimeCodec
  import opened IntervalStore
  import opened ScrollLists

  /** The value of `current_start` while no start is pending. */
  const NoPendingStart: real := -1.0

  /**
   * The intervals closed this session, the pending start, whether the
   * start marker is shown, the data rows of `output.csv` (those it held
   * at start-up, then one per closed interval) and the interval list.
   */
  datatype AnnotatorState = AnnotatorState(
    intervals: seq<Span>,
    currentStart: real,
    showMarker: bool,
    output: seq<TimeRow>,
    list: ScrollList)

  predicate Ordered(sp: Span)
  {
    sp.start <= sp.end
  }

  /** The rows this session wrote: the last one per interval. */
  function SessionRows(a: AnnotatorState): seq<TimeRow>
    requires |a.output| >= |a.intervals|
  {
    a.output[|a.output| - |a.intervals|..]
  }

  /**
   * What holds of the annotator between any two events: every interval
   * is ordered and the file ends with one row per interval, in order.
   */
  ghost predicate Inv(a: AnnotatorState)
  {
    && |a.output| >= |a.intervals|
    && (forall i :: 0 <= i < |a.intervals| ==> Ordered(a.intervals[i]))
    && SessionRows(a) == LogRows(a.intervals)
    && (a.currentStart != NoPendingStart ==> a.showMarker)
    && a.list.itemHeight > 0 && OffsetInRange(a.list, |a.intervals|)
  }

  /**
   * Start-up: no intervals, no pending start, no marker, the list at the
   * top; `output.csv` keeps whatever rows it already had.
   */
  function Start(existing: Option<seq<TimeRow>>, listTop: int, listHeight: int): (a: AnnotatorState)
    ensures Inv(a)
    ensures a.intervals == [] && a.currentStart == NoPendingStart && !a.showMarker
    ensures a.output == if existing.Some? then existing.value else []
    ensures a.list == NewList(listTop, listHeight)
  {
    var rows := if existing.Some? then existing.value else [];
    var a := AnnotatorState([], NoPendingStart, false, rows, NewList(listTop, listHeight));
    assert SessionRows(a) == [];
    a
  }

  /** Key X: the pending start becomes `t`, whatever was pending, and the marker shows. */
  function MarkStart(a: AnnotatorState, t: real): (r: AnnotatorState)
    ensures r.currentStart == t && r.showMarker
    ensures r.intervals == a.intervals && r.output == a.output && r.list == a.list
  {
    a.(currentStart := t, showMarker := true)
  }

  lemma MarkStartInv(a: AnnotatorState, t: real)
    requires Inv(a)
    ensures Inv(MarkStart(a, t))
  {
    SameRowsKeepInv(a, MarkStart(a, t));
  }

  /** A second start before an end replaces the first. */
  lemma MarkStartOverwrites(a: AnnotatorState, t1: real, t2: real)
    ensures MarkStart(MarkStart(a, t1), t2) == MarkStart(a, t2)
  {
  }

  /** The interval from a pending start to `t`, its bounds swapped if `t` is earlier. */
  function Close(start: real, t: real): (sp: Span)
    ensures Ordered(sp)
    ensures multiset{sp.start, sp.end} == multiset{start, t}
  {
    var s, e := start, t;
    if e < s then Span(e, s) else Span(s, e)
  }

  /** An ordered span holding two given values is unique. */
  lemma CloseUnique(start: real, t: real, sp: Span)
    requires Ordered(sp) && multiset{sp.start, sp.end} == multiset{start, t}
    ensures sp == Close(start, t)
  {
    assert sp.start in multiset{start, t} && sp.end in multiset{start, t};
    assert start in multiset{sp.start, sp.end} && t in multiset{sp.start, sp.end};
  }

  /**
   * Key C: with no pending start nothing happens. Otherwise the closed
   * interval goes to the end of the list, its row to the end of the
   * file, and the pending start and the marker are cleared.
   */
  function MarkEnd(a: AnnotatorState, t: real): (r: AnnotatorState)
    ensures a.currentStart == NoPendingStart ==> r == a
    ensures a.currentStart != NoPendingStart ==>
      && |r.intervals| == |a.intervals| + 1
      && r.intervals[..|a.intervals|] == a.intervals
      && Ordered(r.intervals[|a.intervals|])
      && multiset{r.intervals[|a.intervals|].start, r.intervals[|a.intervals|].end} == multiset{a.currentStart, t}
      && r.output == a.output + [LogRow(r.intervals[|a.intervals|])]
      && r.currentStart == NoPendingStart && !r.showMarker
      && r.list == a.list
  {
    if a.currentStart == NoPendingStart then a
    else
      var sp := Close(a.currentStart, t);
      a.(intervals := a.intervals + [sp],
         output := a.output + [LogRow(sp)],
         currentStart := NoPendingStart,
         showMarker := false)
  }

  /** Closing an interval keeps the invariant. */
  lemma MarkEndInv(a: AnnotatorState, t: real)
    requires Inv(a)
    ensures Inv(MarkEnd(a, t))
  {
    if a.currentStart != NoPendingStart {
      var r := MarkEnd(a, t);
      var n := |a.intervals|;
      var sp := r.intervals[n];
      assert r.intervals == a.intervals + [sp];
      AppendKeepsInv(a, r, sp);
    }
  }

  /**
   * Appending an ordered interval and its row, with no start pending,
   * keeps the invariant.
   */
  lemma AppendKeepsInv(a: AnnotatorState, r: AnnotatorState, sp: Span)
    requires Inv(a) && Ordered(sp)
    requires r.intervals == a.intervals + [sp] && r.output == a.output + [LogRow(sp)]
    requires r.currentStart == NoPendingStart && r.list == a.list
    ensures Inv(r)
  {
    var n := |a.intervals|;
    var row := LogRow(sp);
    assert SessionRows(r) == SessionRows(a) + [row] by {
      SuffixSnoc(a.output, n, row);
    }
    assert LogRows(r.intervals) == LogRows(a.intervals) + [row] by {
      LogRowsSnoc(a.intervals, sp);
    }
    forall i | 0 <= i < n + 1
      ensures Ordered(r.intervals[i])
    {
      if i < n {
        assert r.intervals[i] == a.intervals[i];
      }
    }
    assert OffsetInRange(r.list, n + 1) by {
      MaxOffsetGrows(a.list, n);
    }
  }

  /** Appending a row extends the last `n` rows by it. */
  lemma SuffixSnoc(rows: seq<TimeRow>, n: nat, row: TimeRow)
    requires |rows| >= n
    ensures (rows + [row])[|rows| + 1 - (n + 1)..] == rows[|rows| - n..] + [row]
  {
  }

  lemma {:induction false} LogRowsSnoc(spans: seq<Span>, sp: Span)
    ensures LogRows(spans + [sp]) == LogRows(spans) + [LogRow(sp)]
  {
    if |spans| == 0 {
      assert spans + [sp] == [sp];
      assert LogRows([sp]) == [LogRow(sp)] + LogRows([]);
    } else {
      assert (spans + [sp])[0] == spans[0];
      assert (spans + [sp])[1..] == spans[1..] + [sp];
      LogRowsSnoc(spans[1..], sp);
    }
  }

  /** One more row never lets a list scroll less far. */
  lemma MaxOffsetGrows(l: ScrollList, n: nat)
    requires l.itemHeight > 0
    ensures MaxOffset(l, n) <= MaxOffset(l, n + 1)
  {
    assert (n + 1) * l.itemHeight == n * l.itemHeight + l.itemHeight;
  }

  /** A start at `s` and an end at `e` store the interval between them, earlier bound first. */
  lemma StartThenEnd(a: AnnotatorState, s: real, e: real)
    requires s != NoPendingStart
    ensures MarkEnd(MarkStart(a, s), e).intervals == a.intervals + [if e < s then Span(e, s) else Span(s, e)]
  {
  }

  datatype AnnotatorEvent =
    | StartKey(t: real)
    | EndKey(t: real)
    | MouseDown(button: int)

  /**
   * One event of `handle_events`: X and C carry the playback time; the
   * wheel scrolls the list by one row.
   */
  function Step(a: AnnotatorState, e: AnnotatorEvent): (r: AnnotatorState)
    requires Inv(a)
    ensures Inv(r)
    ensures |a.intervals| <= |r.intervals| && r.intervals[..|a.intervals|] == a.intervals
    ensures a.output <= r.output
    ensures e.StartKey? ==> r == MarkStart(a, e.t)
    ensures e.EndKey? ==> r == MarkEnd(a, e.t)
    ensures e.MouseDown? && (e.button == 4 || e.button == 5) ==>
      r == a.(list := Scroll(a.list, |a.intervals|, if e.button == 4 then -a.list.itemHeight else a.list.itemHeight))
    ensures e.MouseDown? && e.button != 4 && e.button != 5 ==> r == a
  {
    match e
    case StartKey(t) =>
      MarkStartInv(a, t);
      MarkStart(a, t)
    case EndKey(t) =>
      MarkEndInv(a, t);
      MarkEnd(a, t)
    case MouseDown(button) =>
      if button == 4 || button == 5 then
        WheelScroll(a, if button == 4 then -a.list.itemHeight else a.list.itemHeight)
      else a
  }

  /** The wheel moves the list by `delta` and leaves the rest alone. */
  function WheelScroll(a: AnnotatorState, delta: int): (r: AnnotatorState)
    requires Inv(a)
    ensures Inv(r)
    ensures r.intervals == a.intervals && r.output == a.output
    ensures r == a.(list := Scroll(a.list, |a.intervals|, delta))
  {
    var r := a.(list := Scroll(a.list, |a.intervals|, delta));
    SameRowsKeepInv(a, r);
    r
  }

  /**
   * A state with the same intervals and file rows as one that keeps the
   * invariant keeps it too, if its marker and list are in order.
   */
  lemma SameRowsKeepInv(a: AnnotatorState, r: AnnotatorState)
    requires Inv(a)
    requires r.intervals == a.intervals && r.output == a.output
    requires r.currentStart != NoPendingStart ==> r.showMarker
    requires r.list.itemHeight > 0 && OffsetInRange(r.list, |r.intervals|)
    ensures Inv(r)
  {
    assert SessionRows(r) == SessionRows(a);
  }

  /**
   * The rows written this session, read back as an interval file, load
   * as the session's intervals cut to whole seconds, in stable start
   * order, each still with its start no later than its end.
   */
  lemma SessionReloads(a: AnnotatorState)
    requires Inv(a)
    ensures LoadStore(Some(SessionRows(a))) == Ok(AssignIds(Sort(TruncSpans(a.intervals))))
    ensures forall i :: 0 <= i < |a.intervals| ==> Ordered(AssignIds(Sort(TruncSpans(a.intervals)))[i].span)
  {
    LogRowsReload(a.intervals);
    ReloadOrdered(a.intervals);
  }

  /** Rows written by `format_time` load as their spans cut to whole seconds, sorted. */
  lemma LogRowsReload(spans: seq<Span>)
    ensures LoadStore(Some(LogRows(spans))) == Ok(AssignIds(Sort(TruncSpans(spans))))
  {
    ParseLogRows(spans);
  }

  /** Cutting to whole seconds and sorting keep every span ordered. */
  lemma ReloadOrdered(spans: seq<Span>)
    requires forall i :: 0 <= i < |spans| ==> Ordered(spans[i])
    ensures forall i :: 0 <= i < |spans| ==> Ordered(AssignIds(Sort(TruncSpans(spans)))[i].span)
  {
    var cut := TruncSpans(spans);
    forall i | 0 <= i < |cut|
      ensures Ordered(cut[i])
    {
      TruncSpanOrdered(spans[i]);
    }
    var sorted := Sort(cut);
    forall i | 0 <= i < |sorted|
      ensures Ordered(sorted[i])
    {
      assert sorted[i] in multiset(cut);
    }
    var loaded := AssignIds(sorted);
    forall i | 0 <= i < |loaded|
      ensures Ordered(loaded[i].span)
    {
      assert loaded[i].span == SpansOf(loaded)[i];
    }
  }
}

=== FILE: intervalstore.dfy ===
/**
 * The interval lists of the matcher: reading a `start,end` CSV file,
 * ordering it by start time the way Python's stable `list.sort` does,
 * numbering the intervals by position and looking an interval up by its
 * bounds.
 */
module IntervalStore {
  import opened Wrappers
  import opened TimeCodec

  /** One data row of a `start,end` CSV file, both cells as written. */
  datatype TimeRow = TimeRow(start: string, end: string)

  /** The numeric bounds of an interval, in seconds. */
  datatype Span = Span(start: real, end: real)

  /** An interval record after loading: its bounds, positional id and matched flag. */
  datatype Interval = Interval(id: nat, span: Span, matched: bool)

  // ---------------------------------------------------------------
  // Ordering by start time
  // ---------------------------------------------------------------

  predicate SortedByStart(s: seq<Span>)
  {
    forall i, j :: 0 <= i < j < |s| ==> s[i].start <= s[j].start
  }

  /**
   * The spans of `s` whose start is `v`, in their order in `s`. A sort
   * is stable exactly when it keeps every such run.
   */
  function KeyRun(s: seq<Span>, v: real): seq<Span>
  {
    if |s| == 0 then []
    else KeyRun(s[..|s| - 1], v) + (if s[|s| - 1].start == v then [s[|s| - 1]] else [])
  }

  lemma {:induction false} KeyRunMembers(s: seq<Span>, v: real)
    ensures forall x :: x in KeyRun(s, v) ==> x in s && x.start == v
  {
    if |s| > 0 {
      KeyRunMembers(s[..|s| - 1], v);
    }
  }

  lemma {:induction false} KeyRunOfMember(s: seq<Span>, i: int)
    requires 0 <= i < |s|
    ensures s[i] in KeyRun(s, s[i].start)
  {
    if i < |s| - 1 {
      KeyRunOfMember(s[..|s| - 1], i);
    }
  }

  /**
   * Insertion of `x` into a sorted sequence after every span whose start
   * is not greater, which is where a stable sort puts the later of two
   * equal keys.
   */
  function Insert(s: seq<Span>, x: Span): (r: seq<Span>)
    requires SortedByStart(s)
    ensures |r| == |s| + 1
    ensures SortedByStart(r)
    ensures r[|r| - 1].start == (if |s| > 0 && x.start < s[|s| - 1].start then s[|s| - 1].start else x.start)
  {
    if |s| == 0 then [x]
    else if s[|s| - 1].start <= x.start then s + [x]
    else
      var init := s[..|s| - 1];
      var last := s[|s| - 1];
      var p := Insert(init, x);
      assert forall i :: 0 <= i < |p| ==> p[i].start <= p[|p| - 1].start <= last.start;
      p + [last]
  }

  lemma {:induction false} InsertPermutes(s: seq<Span>, x: Span)
    requires SortedByStart(s)
    ensures multiset(Insert(s, x)) == multiset(s) + multiset{x}
  {
    if |s| > 0 && s[|s| - 1].start > x.start {
      var init := s[..|s| - 1];
      InsertPermutes(init, x);
      assert s == init + [s[|s| - 1]];
    }
  }

  lemma {:induction false} InsertKeyRun(s: seq<Span>, x: Span, v: real)
    requires SortedByStart(s)
    ensures KeyRun(Insert(s, x), v) == KeyRun(s, v) + (if x.start == v then [x] else [])
  {
    var r := Insert(s, x);
    if |s| == 0 {
      assert r[..0] == [];
    } else if s[|s| - 1].start <= x.start {
      assert r[..|r| - 1] == s;
    } else {
      var init := s[..|s| - 1];
      InsertKeyRun(init, x, v);
      assert r[..|r| - 1] == Insert(init, x);
    }
  }

  /** Python's `list.sort(key=start)`: a stable sort, here by insertion. */
  function Sort(s: seq<Span>): (r: seq<Span>)
    ensures SortedByStart(r)
    ensures multiset(r) == multiset(s) && |r| == |s|
  {
    if |s| == 0 then []
    else
      var init := s[..|s| - 1];
      assert s == init + [s[|s| - 1]];
      InsertPermutes(Sort(init), s[|s| - 1]);
      Insert(Sort(init), s[|s| - 1])
  }

  /** Sorting keeps, for every start time, the order of the spans with that start. */
  lemma {:induction false} SortKeyRun(s: seq<Span>, v: real)
    ensures KeyRun(Sort(s), v) == KeyRun(s, v)
  {
    if |s| > 0 {
      var init := s[..|s| - 1];
      SortKeyRun(init, v);
      InsertKeyRun(Sort(init), s[|s| - 1], v);
    }
  }

  /**
   * A sorted sequence is determined by its runs of equal starts: any two
   * sorted arrangements that keep every run are the same sequence. So
   * `Sort` is the one stable sort, and agrees with Python's.
   */
  lemma {:induction false} SortedRunsDetermine(r: seq<Span>, q: seq<Span>)
    requires SortedByStart(r) && SortedByStart(q)
    requires forall v :: KeyRun(r, v) == KeyRun(q, v)
    ensures r == q
  {
    if |r| == 0 {
      forall v
        ensures KeyRun(q, v) == []
      {
        assert KeyRun(r, v) == KeyRun(q, v);
      }
      NoRunsEmpty(q);
    } else if |q| == 0 {
      forall v
        ensures KeyRun(r, v) == []
      {
        assert KeyRun(r, v) == KeyRun(q, v);
      }
      NoRunsEmpty(r);
    } else {
      var ri, qi := r[..|r| - 1], q[..|q| - 1];
      LastStartsAgree(r, q);
      assert r == ri + [r[|r| - 1]] && q == qi + [q[|q| - 1]];
      InitRunsAgree(ri, qi, r[|r| - 1], q[|q| - 1]);
      SortedRunsDetermine(ri, qi);
    }
  }

  lemma KeyRunSnoc(s: seq<Span>, x: Span, v: real)
    ensures x.start == v ==> KeyRun(s + [x], v) == KeyRun(s, v) + [x]
    ensures x.start != v ==> KeyRun(s + [x], v) == KeyRun(s, v)
  {
    assert (s + [x])[..|s|] == s;
  }

  /**
   * Two sequences with the same runs whose last spans start alike end in
   * the same span, and what precedes it has the same runs too.
   */
  lemma InitRunsAgree(ri: seq<Span>, qi: seq<Span>, a: Span, b: Span)
    requires a.start == b.start
    requires forall v :: KeyRun(ri + [a], v) == KeyRun(qi + [b], v)
    ensures a == b
    ensures forall v :: KeyRun(ri, v) == KeyRun(qi, v)
  {
    forall v
      ensures KeyRun(ri, v) == KeyRun(qi, v)
    {
      assert KeyRun(ri + [a], v) == KeyRun(qi + [b], v);
      KeyRunSnoc(ri, a, v);
      KeyRunSnoc(qi, b, v);
      if v == a.start {
        assert KeyRun(ri, v) + [a] == KeyRun(qi, v) + [b];
        AppendCancel(KeyRun(ri, v), KeyRun(qi, v), a, b);
      }
    }
    KeyRunSnoc(ri, a, a.start);
    KeyRunSnoc(qi, b, a.start);
    AppendCancel(KeyRun(ri, a.start), KeyRun(qi, a.start), a, b);
  }

  lemma AppendCancel<T>(x: seq<T>, y: seq<T>, a: T, b: T)
    requires x + [a] == y + [b]
    ensures x == y && a == b
  {
    assert x == (x + [a])[..|x|];
    assert y == (y + [b])[..|y|];
  }

  /** A sequence all of whose runs are empty is empty. */
  lemma NoRunsEmpty(q: seq<Span>)
    ensures (forall v :: KeyRun(q, v) == []) ==> q == []
  {
    if |q| > 0 {
      KeyRunOfMember(q, |q| - 1);
    }
  }

  lemma LastStartsAgree(r: seq<Span>, q: seq<Span>)
    requires SortedByStart(r) && SortedByStart(q) && |r| > 0 && |q| > 0
    requires forall v :: KeyRun(r, v) == KeyRun(q, v)
    ensures r[|r| - 1].start == q[|q| - 1].start
  {
    var a, b := r[|r| - 1], q[|q| - 1];
    KeyRunOfMember(q, |q| - 1);
    KeyRunMembers(r, b.start);
    assert b in KeyRun(r, b.start);
    KeyRunOfMember(r, |r| - 1);
    KeyRunMembers(q, a.start);
    assert a in KeyRun(q, a.start);
  }

  /** `Sort` is the stable sort: the only sorted arrangement keeping every run. */
  lemma SortIsTheStableSort(s: seq<Span>, q: seq<Span>)
    requires SortedByStart(q)
    requires forall v :: KeyRun(q, v) == KeyRun(s, v)
    ensures Sort(s) == q
  {
    forall v
      ensures KeyRun(Sort(s), v) == KeyRun(q, v)
    {
      SortKeyRun(s, v);
    }
    SortedRunsDetermine(Sort(s), q);
  }

  /** Sorting an already sorted list changes nothing. */
  lemma SortOfSorted(s: seq<Span>)
    requires SortedByStart(s)
    ensures Sort(s) == s
  {
    SortIsTheStableSort(s, s);
  }

  // ---------------------------------------------------------------
  // Loading
  // ---------------------------------------------------------------

  predicate RowParses(row: TimeRow)
  {
    ParseTime(row.start).Ok? && ParseTime(row.end).Ok?
  }

  /**
   * `parse_time` applied to both cells of every row, in file order; the
   * first cell that does not parse raises, and nothing is loaded.
   */
  function ParseRows(rows: seq<TimeRow>): (r: Result<seq<Span>, TimeError>)
    ensures r.Ok? <==> forall i :: 0 <= i < |rows| ==> RowParses(rows[i])
    ensures r.Ok? ==> |r.value| == |rows|
    ensures r.Ok? ==> forall i :: 0 <= i < |rows| ==>
      r.value[i] == Span(ParseTime(rows[i].start).value, ParseTime(rows[i].end).value)
  {
    if |rows| == 0 then Ok([])
    else
      var s :- ParseTime(rows[0].start);
      var e :- ParseTime(rows[0].end);
      var rest :- ParseRows(rows[1..]);
      Ok([Span(s, e)] + rest)
  }

  function SpansOf(items: seq<Interval>): (r: seq<Span>)
    ensures |r| == |items|
    ensures forall i :: 0 <= i < |items| ==> r[i] == items[i].span
  {
    seq(|items|, i requires 0 <= i < |items| => items[i].span)
  }

  predicate IdsArePositions(items: seq<Interval>)
  {
    forall i :: 0 <= i < |items| ==> items[i].id == i
  }

  predicate NoneMatched(items: seq<Interval>)
  {
    forall i :: 0 <= i < |items| ==> !items[i].matched
  }

  /** Numbering by `enumerate`: each interval gets its position as id, unmatched. */
  function AssignIds(spans: seq<Span>): (r: seq<Interval>)
    ensures IdsArePositions(r) && NoneMatched(r)
    ensures SpansOf(r) == spans
  {
    seq(|spans|, i requires 0 <= i < |spans| => Interval(i, spans[i], false))
  }

  /**
   * `load_csv` followed by the id assignment of the constructor. An absent
   * file gives no intervals; a cell that does not parse fails the load.
   */
  function LoadStore(file: Option<seq<TimeRow>>): (r: Result<seq<Interval>, TimeError>)
    ensures file.None? ==> r == Ok([])
    ensures file.Some? ==> (r.Ok? <==> ParseRows(file.value).Ok?)
    ensures r.Ok? ==> IdsArePositions(r.value) && NoneMatched(r.value)
    ensures r.Ok? ==> SortedByStart(SpansOf(r.value))
    ensures r.Ok? && file.Some? ==> multiset(SpansOf(r.value)) == multiset(ParseRows(file.value).value)
  {
    match file
    case None => Ok([])
    case Some(rows) =>
      var spans :- ParseRows(rows);
      Ok(AssignIds(Sort(spans)))
  }

  /**
   * The loaded intervals are the parsed rows in stable start order: rows
   * with equal starts keep their file order.
   */
  lemma LoadStoreStable(rows: seq<TimeRow>, v: real)
    requires ParseRows(rows).Ok?
    ensures KeyRun(SpansOf(LoadStore(Some(rows)).value), v) == KeyRun(ParseRows(rows).value, v)
  {
    SortKeyRun(ParseRows(rows).value, v);
  }

  // ---------------------------------------------------------------
  // Lookup by bounds
  // ---------------------------------------------------------------

  /**
   * The position of the first interval whose bounds equal `start` and
   * `end`, as `next(...)` over the list finds it, or `None`.
   */
  function FindByBounds(items: seq<Interval>, start: real, end: real): (r: Option<nat>)
    ensures r.Some? ==> r.value < |items| && items[r.value].span == Span(start, end)
    ensures r.Some? ==> forall j :: 0 <= j < r.value ==> items[j].span != Span(start, end)
    ensures r.None? <==> forall j :: 0 <= j < |items| ==> items[j].span != Span(start, end)
  {
    if |items| == 0 then None
    else if items[0].span == Span(start, end) then Some(0)
    else
      match FindByBounds(items[1..], start, end)
      case None => None
      case Some(k) => Some(k + 1)
  }

  /** The lookup reads only the bounds: setting matched flags does not change it. */
  lemma {:induction false} FindIgnoresFlags(a: seq<Interval>, b: seq<Interval>, start: real, end: real)
    requires SpansOf(a) == SpansOf(b)
    ensures FindByBounds(a, start, end) == FindByBounds(b, start, end)
  {
    assert |a| == |SpansOf(a)| == |b|;
    if |a| > 0 {
      assert a[0].span == SpansOf(a)[0] == b[0].span;
      assert SpansOf(a[1..]) == SpansOf(a)[1..] == SpansOf(b[1..]);
      FindIgnoresFlags(a[1..], b[1..], start, end);
    }
  }

  // ---------------------------------------------------------------
  // Rows written as `HH:MM:SS`
  // ---------------------------------------------------------------

  /** A row of two `VideoPanel.format_time` cells. */
  function LogRow(sp: Span): TimeRow
  {
    TimeRow(FormatHms(sp.start), FormatHms(sp.end))
  }

  function LogRows(spans: seq<Span>): (r: seq<TimeRow>)
    ensures |r| == |spans|
    ensures forall i :: 0 <= i < |spans| ==> r[i] == LogRow(spans[i])
  {
    if |spans| == 0 then [] else [LogRow(spans[0])] + LogRows(spans[1..])
  }

  /** Both bounds cut to whole seconds toward zero, as the written text keeps them. */
  function TruncSpan(sp: Span): Span
  {
    Span(Trunc(sp.start) as real, Trunc(sp.end) as real)
  }

  function TruncSpans(spans: seq<Span>): (r: seq<Span>)
    ensures |r| == |spans|
    ensures forall i :: 0 <= i < |spans| ==> r[i] == TruncSpan(spans[i])
  {
    if |spans| == 0 then [] else [TruncSpan(spans[0])] + TruncSpans(spans[1..])
  }

  predicate WholeSeconds(sp: Span)
  {
    sp == TruncSpan(sp)
  }

  /** Reading back written rows gives the spans cut to whole seconds. */
  lemma {:induction false} ParseLogRows(spans: seq<Span>)
    ensures ParseRows(LogRows(spans)) == Ok(TruncSpans(spans))
  {
    if |spans| > 0 {
      var sp, tail := spans[0], spans[1..];
      ParseLogRow(sp);
      ParseLogRows(tail);
      ParseRowsCons(LogRow(sp), LogRows(tail), TruncSpan(sp).start, TruncSpan(sp).end, TruncSpans(tail));
    }
  }

  /** One written row reads back as its span cut to whole seconds. */
  lemma ParseLogRow(sp: Span)
    ensures ParseTime(LogRow(sp).start) == Ok(TruncSpan(sp).start)
    ensures ParseTime(LogRow(sp).end) == Ok(TruncSpan(sp).end)
  {
    ParseFormatHms(sp.start);
    ParseFormatHms(sp.end);
  }

  /** A row followed by more rows parses as its span followed by theirs. */
  lemma ParseRowsCons(row: TimeRow, tail: seq<TimeRow>, s: real, e: real, rest: seq<Span>)
    requires ParseTime(row.start) == Ok(s) && ParseTime(row.end) == Ok(e)
    requires ParseRows(tail) == Ok(rest)
    ensures ParseRows([row] + tail) == Ok([Span(s, e)] + rest)
  {
    var rows := [row] + tail;
    assert rows[0] == row && rows[1..] == tail;
  }

  /** Cutting to whole seconds keeps `start <= end`. */
  lemma TruncSpanOrdered(sp: Span)
    requires sp.start <= sp.end
    ensures TruncSpan(sp).start <= TruncSpan(sp).end
  {
    TruncMonotone(sp.start, sp.end);
  }

  /**
   * A file whose rows are already in start order loads in file order,
   * numbered 0, 1, 2, ... from the top.
   */
  lemma LoadSortedRows(rows: seq<TimeRow>)
    requires ParseRows(rows).Ok? && SortedByStart(ParseRows(rows).value)
    ensures LoadStore(Some(rows)) == Ok(AssignIds(ParseRows(rows).value))
    ensures forall i :: 0 <= i < |rows| ==>
      LoadStore(Some(rows)).value[i].span.start == ParseTime(rows[i].start).value
  {
    SortOfSorted(ParseRows(rows).value);
    var r := AssignIds(ParseRows(rows).value);
    forall i | 0 <= i < |rows|
      ensures r[i].span.start == ParseTime(rows[i].start).value
    {
      assert r[i].span == SpansOf(r)[i];
    }
  }
}

=== FILE: matcher.dfy ===
/**
 * The film-to-game interval matcher: the two loaded interval lists, the
 * match matrix from film ids to lists of game ids, the staged selection
 * of one film and one game row, the match log, and the events that act
 * on them.
 */
module Matcher {
  import opened Wrappers
  import opened TimeCodec
  import opened IntervalStore
  import opened ScrollLists
  import opened MatchLog

  /** How far one wheel notch scrolls both lists, in pixels. */
  const WheelStep: int := 28

  datatype MatcherState = MatcherState(
    films: seq<Interval>,
    games: seq<Interval>,
    links: map<nat, seq<nat>>,
    selectedFilm: Option<nat>,
    selectedGame: Option<nat>,
    log: Option<seq<MatchRow>>,
    filmList: ScrollList,
    gameList: ScrollList)

  predicate NoDup(xs: seq<nat>)
  {
    forall i, j :: 0 <= i < j < |xs| ==> xs[i] != xs[j]
  }

  /** The matrix has a list for exactly the film ids, each without repeats and naming games. */
  ghost predicate LinksValid(links: map<nat, seq<nat>>, filmCount: nat, gameCount: nat)
  {
    && (forall f: nat :: f in links <==> f < filmCount)
    && (forall f :: f in links ==> NoDup(links[f]))
    && (forall f, g :: f in links && g in links[f] ==> g < gameCount)
  }

  /** What holds of the matcher between any two events. */
  ghost predicate Valid(m: MatcherState)
  {
    && IdsArePositions(m.films) && IdsArePositions(m.games)
    && LinksValid(m.links, |m.films|, |m.games|)
    && (m.selectedFilm.Some? ==> m.selectedFilm.value < |m.films|)
    && (m.selectedGame.Some? ==> m.selectedGame.value < |m.games|)
    && m.filmList.itemHeight > 0 && m.gameList.itemHeight > 0
    && OffsetInRange(m.filmList, |m.films|) && OffsetInRange(m.gameList, |m.games|)
  }

  // ---------------------------------------------------------------
  // The lists of the match matrix
  // ---------------------------------------------------------------

  /** `if g not in xs: xs.append(g)`. */
  function AddLink(xs: seq<nat>, g: nat): (r: seq<nat>)
    ensures forall y :: y in r <==> y in xs || y == g
    ensures g in xs ==> r == xs
    ensures g !in xs ==> r == xs + [g]
    ensures NoDup(xs) ==> NoDup(r)
  {
    if g in xs then xs else xs + [g]
  }

  /** `xs.remove(g)`: the first occurrence of `g` goes, if there is one. */
  function RemoveFirst(xs: seq<nat>, g: nat): (r: seq<nat>)
    ensures forall y :: y != g ==> (y in r <==> y in xs)
    ensures g !in xs ==> r == xs
    ensures g in xs ==> |r| == |xs| - 1
  {
    if |xs| == 0 then []
    else if xs[0] == g then xs[1..]
    else [xs[0]] + RemoveFirst(xs[1..], g)
  }

  /** Removing from a list without repeats removes the game altogether and adds no repeat. */
  lemma {:induction false} RemoveFirstNoDup(xs: seq<nat>, g: nat)
    requires NoDup(xs)
    ensures g !in RemoveFirst(xs, g) && NoDup(RemoveFirst(xs, g))
  {
    if |xs| > 0 && xs[0] != g {
      RemoveFirstNoDup(xs[1..], g);
      var rest := RemoveFirst(xs[1..], g);
      assert xs[0] !in xs[1..];
      assert xs[0] !in rest;
      assert forall i :: 0 <= i < |rest| ==> ([xs[0]] + rest)[i + 1] == rest[i];
    }
  }

  /** Removing a game just added gives the list back. */
  lemma RemoveAdded(xs: seq<nat>, g: nat)
    requires g !in xs
    ensures RemoveFirst(AddLink(xs, g), g) == xs
  {
    RemoveLast(xs, g);
  }

  lemma {:induction false} RemoveLast(xs: seq<nat>, g: nat)
    requires g !in xs
    ensures RemoveFirst(xs + [g], g) == xs
  {
    if |xs| > 0 {
      assert (xs + [g])[1..] == xs[1..] + [g];
      RemoveLast(xs[1..], g);
    }
  }

  /** Adding a game already present changes nothing: linking is idempotent. */
  lemma AddLinkTwice(xs: seq<nat>, g: nat)
    ensures AddLink(AddLink(xs, g), g) == AddLink(xs, g)
  {
  }

  /** `items[i]["matched"] = b`. */
  function SetMatched(items: seq<Interval>, i: nat, b: bool): (r: seq<Interval>)
    requires i < |items|
    ensures |r| == |items| && r[i].matched == b && r[i].id == items[i].id
    ensures forall j :: 0 <= j < |items| && j != i ==> r[j] == items[j]
    ensures SpansOf(r) == SpansOf(items)
    ensures IdsArePositions(items) ==> IdsArePositions(r)
  {
    items[i := items[i].(matched := b)]
  }

  // ---------------------------------------------------------------
  // Linking a pair
  // ---------------------------------------------------------------

  /**
   * Link the film at `fi` with the game at `gi` by their ids and mark both
   * matched: the common part of `match_selected` and `load_matches_csv`.
   */
  function LinkPair(m: MatcherState, fi: nat, gi: nat): (r: MatcherState)
    requires Valid(m) && fi < |m.films| && gi < |m.games|
    ensures Valid(r)
    ensures r.links == m.links[fi := AddLink(m.links[fi], gi)]
    ensures r.films == SetMatched(m.films, fi, true) && r.games == SetMatched(m.games, gi, true)
    ensures r.selectedFilm == m.selectedFilm && r.selectedGame == m.selectedGame
    ensures r.log == m.log && r.filmList == m.filmList && r.gameList == m.gameList
  {
    var f := m.films[fi].id;
    var g := m.games[gi].id;
    var links := m.links[f := AddLink(m.links[f], g)];
    assert LinksValid(links, |m.films|, |m.games|);
    m.(links := links, films := SetMatched(m.films, fi, true), games := SetMatched(m.games, gi, true))
  }

  predicate BothSelected(m: MatcherState)
  {
    m.selectedFilm.Some? && m.selectedGame.Some?
  }

  /** The log row for a film and a game, as `append_match_csv` and `remove_match_csv` format it. */
  function PairRow(m: MatcherState, fi: nat, gi: nat): MatchRow
    requires fi < |m.films| && gi < |m.games|
  {
    FormatMatchRow(m.films[fi].span, m.games[gi].span)
  }

  function SelectedRow(m: MatcherState): MatchRow
    requires BothSelected(m) && m.selectedFilm.value < |m.films| && m.selectedGame.value < |m.games|
  {
    PairRow(m, m.selectedFilm.value, m.selectedGame.value)
  }

  /**
   * Unlink the film at `fi` from the game at `gi`, if linked, and mark both
   * unmatched.
   */
  function UnlinkPair(m: MatcherState, fi: nat, gi: nat): (r: MatcherState)
    requires Valid(m) && fi < |m.films| && gi < |m.games|
    ensures Valid(r)
    ensures r.links == if gi in m.links[fi] then m.links[fi := RemoveFirst(m.links[fi], gi)] else m.links
    ensures r.films == SetMatched(m.films, fi, false) && r.games == SetMatched(m.games, gi, false)
    ensures r.selectedFilm == m.selectedFilm && r.selectedGame == m.selectedGame
    ensures r.log == m.log && r.filmList == m.filmList && r.gameList == m.gameList
  {
    var f := m.films[fi].id;
    var g := m.games[gi].id;
    var links := if f in m.links && g in m.links[f] then m.links[f := RemoveFirst(m.links[f], g)] else m.links;
    RemoveFirstNoDup(m.links[f], g);
    assert LinksValid(links, |m.films|, |m.games|);
    m.(links := links, films := SetMatched(m.films, fi, false), games := SetMatched(m.games, gi, false))
  }

  /**
   * `match_selected` (key X): with a film and a game selected, link them,
   * append one log row and clear both selections.
   */
  function MatchSelected(m: MatcherState): (r: MatcherState)
    requires Valid(m)
    ensures Valid(r)
    ensures !BothSelected(m) ==> r == m
    ensures BothSelected(m) ==> r.selectedFilm.None? && r.selectedGame.None?
    ensures BothSelected(m) ==> Rows(r.log) == Rows(m.log) + [SelectedRow(m)]
    ensures r.filmList == m.filmList && r.gameList == m.gameList
  {
    if !BothSelected(m) then m
    else
      var linked := LinkPair(m, m.selectedFilm.value, m.selectedGame.value);
      linked.(log := AppendRow(m.log, SelectedRow(m)), selectedFilm := None, selectedGame := None)
  }

  /**
   * After a match the selected game is in the selected film's list, which
   * otherwise keeps its games, and no other film's list changes.
   */
  lemma MatchSelectedLinks(m: MatcherState)
    requires Valid(m) && BothSelected(m)
    ensures var r, fi, gi := MatchSelected(m), m.selectedFilm.value, m.selectedGame.value;
      && fi in r.links
      && (forall g :: g in r.links[fi] <==> g in m.links[fi] || g == gi)
      && (forall f :: f in m.links && f != fi ==> f in r.links && r.links[f] == m.links[f])
  {
  }

  /** After a match both selected intervals are marked matched and no other interval changes. */
  lemma MatchSelectedFlags(m: MatcherState)
    requires Valid(m) && BothSelected(m)
    ensures var r, fi, gi := MatchSelected(m), m.selectedFilm.value, m.selectedGame.value;
      && |r.films| == |m.films| && |r.games| == |m.games|
      && r.films[fi].matched && r.games[gi].matched
      && (forall i :: 0 <= i < |m.films| && i != fi ==> r.films[i] == m.films[i])
      && (forall j :: 0 <= j < |m.games| && j != gi ==> r.games[j] == m.games[j])
  {
  }

  /**
   * `unmatch_selected_pair` (key C): with a film and a game selected,
   * unlink them, drop the pair's rows from the log and clear both
   * selections.
   */
  function UnmatchSelected(m: MatcherState): (r: MatcherState)
    requires Valid(m)
    ensures Valid(r)
    ensures !BothSelected(m) ==> r == m
    ensures BothSelected(m) ==> r.selectedFilm.None? && r.selectedGame.None?
    ensures BothSelected(m) ==> r.log == RemoveRows(m.log, SelectedRow(m))
    ensures r.filmList == m.filmList && r.gameList == m.gameList
  {
    if !BothSelected(m) then m
    else
      var unlinked := UnlinkPair(m, m.selectedFilm.value, m.selectedGame.value);
      unlinked.(log := RemoveRows(m.log, SelectedRow(m)), selectedFilm := None, selectedGame := None)
  }

  /**
   * After an unmatch the selected game is gone from the selected film's
   * list, which otherwise keeps its games, and no other film's list changes.
   */
  lemma UnmatchSelectedLinks(m: MatcherState)
    requires Valid(m) && BothSelected(m)
    ensures var r, fi, gi := UnmatchSelected(m), m.selectedFilm.value, m.selectedGame.value;
      && fi in r.links
      && gi !in r.links[fi]
      && (forall g :: g != gi ==> (g in r.links[fi] <==> g in m.links[fi]))
      && (forall f :: f in m.links && f != fi ==> f in r.links && r.links[f] == m.links[f])
  {
    var fi, gi := m.selectedFilm.value, m.selectedGame.value;
    var r := UnmatchSelected(m);
    assert r.links == UnlinkPair(m, fi, gi).links;
    RemoveFirstNoDup(m.links[fi], gi);
  }

  /**
   * After an unmatch both selected intervals are marked unmatched, whatever
   * other links they keep, and no other interval changes.
   */
  lemma UnmatchSelectedFlags(m: MatcherState)
    requires Valid(m) && BothSelected(m)
    ensures var r, fi, gi := UnmatchSelected(m), m.selectedFilm.value, m.selectedGame.value;
      && |r.films| == |m.films| && |r.games| == |m.games|
      && !r.films[fi].matched && !r.games[gi].matched
      && (forall i :: 0 <= i < |m.films| && i != fi ==> r.films[i] == m.films[i])
      && (forall j :: 0 <= j < |m.games| && j != gi ==> r.games[j] == m.games[j])
  {
  }

  /** `m` with the film at `fi` and the game at `gi` selected. */
  function Select(m: MatcherState, fi: nat, gi: nat): (r: MatcherState)
    ensures BothSelected(r) && r.selectedFilm.value == fi && r.selectedGame.value == gi
    ensures Valid(m) && fi < |m.films| && gi < |m.games| ==> Valid(r)
  {
    m.(selectedFilm := Some(fi), selectedGame := Some(gi))
  }

  /** Select the film at `fi` and the game at `gi`, then press X. */
  function MatchPair(m: MatcherState, fi: nat, gi: nat): (r: MatcherState)
    requires Valid(m) && fi < |m.films| && gi < |m.games|
    ensures Valid(r)
    ensures r.links == m.links[fi := AddLink(m.links[fi], gi)]
    ensures r.log == AppendRow(m.log, PairRow(m, fi, gi))
    ensures SpansOf(r.films) == SpansOf(m.films) && SpansOf(r.games) == SpansOf(m.games)
  {
    MatchSelected(Select(m, fi, gi))
  }

  /** Select the film at `fi` and the game at `gi`, then press C. */
  function UnmatchPair(m: MatcherState, fi: nat, gi: nat): (r: MatcherState)
    requires Valid(m) && fi < |m.films| && gi < |m.games|
    ensures Valid(r)
    ensures r.links == if gi in m.links[fi] then m.links[fi := RemoveFirst(m.links[fi], gi)] else m.links
    ensures r.log == RemoveRows(m.log, PairRow(m, fi, gi))
  {
    UnmatchSelected(Select(m, fi, gi))
  }

  /**
   * Matching a pair a second time leaves the matrix as the first match
   * left it, yet appends a second identical log row.
   */
  lemma MatchTwice(m: MatcherState, fi: nat, gi: nat)
    requires Valid(m) && fi < |m.films| && gi < |m.games|
    ensures var once := MatchPair(m, fi, gi);
      && MatchPair(once, fi, gi).links == once.links
      && Rows(MatchPair(once, fi, gi).log) == Rows(m.log) + [PairRow(m, fi, gi), PairRow(m, fi, gi)]
  {
    var row := PairRow(m, fi, gi);
    var once := MatchPair(m, fi, gi);
    SelectedRowBySpans(once, m, fi, gi);
    var twice := MatchPair(once, fi, gi);
    AddLinkStable(m.links, once.links, twice.links, fi, gi);
    AppendTwice(m.log, once.log, twice.log, row);
  }

  lemma AddLinkStable(links: map<nat, seq<nat>>, once: map<nat, seq<nat>>, twice: map<nat, seq<nat>>, fi: nat, gi: nat)
    requires fi in links
    requires once == links[fi := AddLink(links[fi], gi)]
    requires twice == once[fi := AddLink(once[fi], gi)]
    ensures twice == once
  {
    AddLinkTwice(links[fi], gi);
    assert once[fi := once[fi]] == once;
  }

  lemma AppendTwice(log: Option<seq<MatchRow>>, once: Option<seq<MatchRow>>, twice: Option<seq<MatchRow>>, row: MatchRow)
    requires once == AppendRow(log, row) && twice == AppendRow(once, row)
    ensures Rows(twice) == Rows(log) + [row, row]
  {
  }

  /**
   * Unmatching a pair just matched, when it was not linked before and the
   * log held no row for it, gives back the matrix and the log rows.
   */
  lemma MatchThenUnmatch(m: MatcherState, fi: nat, gi: nat)
    requires Valid(m) && fi < |m.films| && gi < |m.games|
    requires gi !in m.links[fi]
    requires forall i :: 0 <= i < |Rows(m.log)| ==> !RowMatches(Rows(m.log)[i], PairRow(m, fi, gi))
    ensures var back := UnmatchPair(MatchPair(m, fi, gi), fi, gi);
      back.links == m.links && Rows(back.log) == Rows(m.log)
  {
    var row := PairRow(m, fi, gi);
    var once := MatchPair(m, fi, gi);
    SelectedRowBySpans(once, m, fi, gi);
    assert once.links[fi] == AddLink(m.links[fi], gi);
    var back := UnmatchPair(once, fi, gi);
    UnmatchLinksAfterAdd(m.links, fi, gi);
    assert back.links == m.links;
    RemoveAppendedRestores(m.log, row);
    assert back.log == RemoveRows(AppendRow(m.log, row), row);
  }

  /** Removing a game just added to a film's list gives back the matrix. */
  lemma UnmatchLinksAfterAdd(links: map<nat, seq<nat>>, fi: nat, gi: nat)
    requires fi in links && gi !in links[fi]
    ensures var added := links[fi := AddLink(links[fi], gi)];
      added[fi := RemoveFirst(added[fi], gi)] == links
  {
    RemoveAdded(links[fi], gi);
    assert links[fi := links[fi]] == links;
  }

  /** The row of a pair depends only on the bounds of the two intervals. */
  lemma SelectedRowBySpans(a: MatcherState, b: MatcherState, fi: nat, gi: nat)
    requires fi < |a.films| && gi < |a.games|
    requires SpansOf(a.films) == SpansOf(b.films) && SpansOf(a.games) == SpansOf(b.games)
    ensures PairRow(a, fi, gi) == PairRow(b, fi, gi)
  {
    assert a.films[fi].span == SpansOf(a.films)[fi] == b.films[fi].span;
    assert a.games[gi].span == SpansOf(a.games)[gi] == b.games[gi].span;
  }

  /**
   * Unmatching clears the film's matched flag even when the film stays
   * linked to another game.
   */
  lemma UnmatchClearsFlagDespiteOtherLinks(m: MatcherState, other: nat)
    requires Valid(m) && BothSelected(m)
    requires other in m.links[m.selectedFilm.value] && other != m.selectedGame.value
    ensures var r := UnmatchSelected(m);
      && m.selectedFilm.value in r.links && other in r.links[m.selectedFilm.value]
      && !r.films[m.selectedFilm.value].matched
  {
    UnmatchSelectedLinks(m);
    UnmatchSelectedFlags(m);
  }

  // ---------------------------------------------------------------
  // Rebuilding the matrix from the log
  // ---------------------------------------------------------------

  predicate RowTimesParse(row: MatchRow)
  {
    && ParseTime(row.filmStart).Ok? && ParseTime(row.filmEnd).Ok?
    && ParseTime(row.gameStart).Ok? && ParseTime(row.gameEnd).Ok?
  }

  /**
   * One row of `load_matches_csv`: parse the four cells and find the first
   * film and the first game with exactly those bounds.
   */
  function ResolveRow(films: seq<Interval>, games: seq<Interval>, row: MatchRow): (r: Result<Option<(nat, nat)>, TimeError>)
    ensures r.Ok? <==> RowTimesParse(row)
    ensures r.Ok? && r.value.Some? ==>
      && r.value.value.0 < |films| && r.value.value.1 < |games|
      && films[r.value.value.0].span == Span(ParseTime(row.filmStart).value, ParseTime(row.filmEnd).value)
      && games[r.value.value.1].span == Span(ParseTime(row.gameStart).value, ParseTime(row.gameEnd).value)
    ensures r.Ok? && r.value.Some? ==>
      && (forall j :: 0 <= j < r.value.value.0 ==> films[j].span != films[r.value.value.0].span)
      && (forall j :: 0 <= j < r.value.value.1 ==> games[j].span != games[r.value.value.1].span)
    ensures r.Ok? && r.value.None? ==>
      || FindByBounds(films, ParseTime(row.filmStart).value, ParseTime(row.filmEnd).value).None?
      || FindByBounds(games, ParseTime(row.gameStart).value, ParseTime(row.gameEnd).value).None?
  {
    var fs :- ParseTime(row.filmStart);
    var fe :- ParseTime(row.filmEnd);
    var gs :- ParseTime(row.gameStart);
    var ge :- ParseTime(row.gameEnd);
    match (FindByBounds(films, fs, fe), FindByBounds(games, gs, ge))
    case (Some(fi), Some(gi)) => Ok(Some((fi, gi)))
    case _ => Ok(None)
  }

  /** The lookup reads bounds only, so flags set by earlier rows do not change it. */
  lemma ResolveIgnoresFlags(a: MatcherState, b: MatcherState, row: MatchRow)
    requires SpansOf(a.films) == SpansOf(b.films) && SpansOf(a.games) == SpansOf(b.games)
    ensures ResolveRow(a.films, a.games, row) == ResolveRow(b.films, b.games, row)
  {
    if RowTimesParse(row) {
      FindIgnoresFlags(a.films, b.films, ParseTime(row.filmStart).value, ParseTime(row.filmEnd).value);
      FindIgnoresFlags(a.games, b.games, ParseTime(row.gameStart).value, ParseTime(row.gameEnd).value);
    }
  }

  /** One row of `load_matches_csv` applied to the state. */
  function ReplayRow(m: MatcherState, row: MatchRow): (r: Result<MatcherState, TimeError>)
    requires Valid(m)
    ensures r.Ok? <==> RowTimesParse(row)
    ensures r.Ok? ==> Valid(r.value)
    ensures r.Ok? ==> SpansOf(r.value.films) == SpansOf(m.films) && SpansOf(r.value.games) == SpansOf(m.games)
    ensures r.Ok? ==> r.value.selectedFilm == m.selectedFilm && r.value.selectedGame == m.selectedGame
    ensures r.Ok? ==> r.value.log == m.log && r.value.filmList == m.filmList && r.value.gameList == m.gameList
  {
    var found :- ResolveRow(m.films, m.games, row);
    if found.Some? then Ok(LinkPair(m, found.value.0, found.value.1)) else Ok(m)
  }

  predicate AllRowsParse(rows: seq<MatchRow>)
  {
    forall i :: 0 <= i < |rows| ==> RowTimesParse(rows[i])
  }

  /**
   * `load_matches_csv` over all rows, in file order; a cell that does not
   * parse raises and the program does not start.
   */
  function Replay(m: MatcherState, rows: seq<MatchRow>): (r: Result<MatcherState, TimeError>)
    requires Valid(m)
    ensures r.Ok? <==> AllRowsParse(rows)
    ensures r.Ok? ==> Valid(r.value)
    ensures r.Ok? ==> SpansOf(r.value.films) == SpansOf(m.films) && SpansOf(r.value.games) == SpansOf(m.games)
    ensures r.Ok? ==> r.value.selectedFilm == m.selectedFilm && r.value.selectedGame == m.selectedGame
    ensures r.Ok? ==> r.value.log == m.log && r.value.filmList == m.filmList && r.value.gameList == m.gameList
    decreases |rows|
  {
    if |rows| == 0 then Ok(m)
    else
      var next :- ReplayRow(m, rows[0]);
      var r := Replay(next, rows[1..]);
      assert r.Ok? <==> AllRowsParse(rows) by {
        assert forall i :: 1 <= i < |rows| ==> rows[i] == rows[1..][i - 1];
      }
      r
  }

  /** Every interval flagged matched in `m` is still flagged in `r`. */
  predicate StillMatched(m: MatcherState, r: MatcherState)
  {
    && (forall i :: 0 <= i < |m.films| && m.films[i].matched ==> i < |r.films| && r.films[i].matched)
    && (forall j :: 0 <= j < |m.games| && m.games[j].matched ==> j < |r.games| && r.games[j].matched)
  }

  /**
   * One replayed row flags both intervals of the pair it resolves to
   * (`matched = True` on each) and clears no flag.
   */
  lemma ReplayRowMarks(m: MatcherState, row: MatchRow)
    requires Valid(m) && ReplayRow(m, row).Ok?
    ensures StillMatched(m, ReplayRow(m, row).value)
    ensures forall f: nat, g: nat :: Resolves(m, row, f, g) ==>
      && f < |ReplayRow(m, row).value.films| && ReplayRow(m, row).value.films[f].matched
      && g < |ReplayRow(m, row).value.games| && ReplayRow(m, row).value.games[g].matched
  {
  }

  /** Replaying never clears a flag: the source only ever sets `matched` while loading. */
  lemma {:induction false} ReplayKeepsMatched(m: MatcherState, rows: seq<MatchRow>)
    requires Valid(m) && Replay(m, rows).Ok?
    ensures StillMatched(m, Replay(m, rows).value)
    decreases |rows|
  {
    if |rows| > 0 {
      var next := ReplayStep(m, rows);
      ReplayRowMarks(m, rows[0]);
      ReplayKeepsMatched(next, rows[1..]);
    }
  }

  /** A successful replay is its first row followed by the replay of the rest. */
  lemma ReplayStep(m: MatcherState, rows: seq<MatchRow>) returns (next: MatcherState)
    requires Valid(m) && Replay(m, rows).Ok? && |rows| > 0
    ensures ReplayRow(m, rows[0]).Ok? && next == ReplayRow(m, rows[0]).value
    ensures Valid(next) && Replay(next, rows[1..]) == Replay(m, rows)
  {
    next := ReplayRow(m, rows[0]).value;
  }

  /** Both intervals of a pair that some row of the log resolves to end up flagged matched. */
  lemma {:induction false} ReplayMarksResolved(m: MatcherState, rows: seq<MatchRow>, i: nat, f: nat, g: nat)
    requires Valid(m) && Replay(m, rows).Ok?
    requires i < |rows| && Resolves(m, rows[i], f, g)
    ensures f < |Replay(m, rows).value.films| && Replay(m, rows).value.films[f].matched
    ensures g < |Replay(m, rows).value.games| && Replay(m, rows).value.games[g].matched
    decreases |rows|
  {
    var next := ReplayStep(m, rows);
    if i == 0 {
      ReplayRowMarks(m, rows[0]);
      ReplayKeepsMatched(next, rows[1..]);
    } else {
      assert 1 <= i < |rows| && Resolves(m, rows[i], f, g);
      ResolvesShift(m, next, rows, f, g);
      var j :| 0 <= j < |rows[1..]| && Resolves(next, rows[1..][j], f, g);
      ReplayMarksResolved(next, rows[1..], j, f, g);
    }
  }

  /** Row `row` of the log names the pair film `f`, game `g`. */
  predicate Resolves(m: MatcherState, row: MatchRow, f: nat, g: nat)
  {
    ResolveRow(m.films, m.games, row) == Ok(Some((f, g)))
  }

  /**
   * After replaying the log, film `f` is linked to game `g` exactly when
   * it was before or some row resolves to that pair.
   */
  lemma {:induction false} ReplayLinks(m: MatcherState, rows: seq<MatchRow>, f: nat, g: nat)
    requires Valid(m) && Replay(m, rows).Ok? && f < |m.films|
    ensures f in Replay(m, rows).value.links
    ensures g in Replay(m, rows).value.links[f] <==>
      g in m.links[f] || exists i :: 0 <= i < |rows| && Resolves(m, rows[i], f, g)
    decreases |rows|
  {
    if |rows| > 0 {
      var next := ReplayRow(m, rows[0]).value;
      ReplayLinks(next, rows[1..], f, g);
      ReplayRowLinks(m, rows[0], f, g);
      ResolvesShift(m, next, rows, f, g);
      if Resolves(m, rows[0], f, g) {
        assert 0 < |rows| && Resolves(m, rows[0], f, g);
      }
    }
  }

  /** One replayed row adds to film `f` at most the game it resolves to. */
  lemma ReplayRowLinks(m: MatcherState, row: MatchRow, f: nat, g: nat)
    requires Valid(m) && ReplayRow(m, row).Ok? && f < |m.films|
    ensures f in ReplayRow(m, row).value.links
    ensures g in ReplayRow(m, row).value.links[f] <==> g in m.links[f] || Resolves(m, row, f, g)
  {
  }

  /** Resolving the remaining rows against the updated state is resolving them against the old one. */
  lemma ResolvesShift(m: MatcherState, next: MatcherState, rows: seq<MatchRow>, f: nat, g: nat)
    requires |rows| > 0
    requires SpansOf(m.films) == SpansOf(next.films) && SpansOf(m.games) == SpansOf(next.games)
    ensures (exists i :: 0 <= i < |rows[1..]| && Resolves(next, rows[1..][i], f, g)) <==>
            (exists i :: 1 <= i < |rows| && Resolves(m, rows[i], f, g))
  {
    if exists i :: 0 <= i < |rows[1..]| && Resolves(next, rows[1..][i], f, g) {
      var i :| 0 <= i < |rows[1..]| && Resolves(next, rows[1..][i], f, g);
      ResolveIgnoresFlags(m, next, rows[i + 1]);
      assert Resolves(m, rows[i + 1], f, g);
    }
    if exists i :: 1 <= i < |rows| && Resolves(m, rows[i], f, g) {
      var i :| 1 <= i < |rows| && Resolves(m, rows[i], f, g);
      ResolveIgnoresFlags(m, next, rows[i]);
      assert Resolves(next, rows[1..][i - 1], f, g);
    }
  }

  /** Replaying keeps every list of the matrix free of repeats, however often a pair is logged. */
  lemma ReplayNoDup(m: MatcherState, rows: seq<MatchRow>, f: nat)
    requires Valid(m) && Replay(m, rows).Ok? && f < |m.films|
    ensures NoDup(Replay(m, rows).value.links[f])
  {
  }

  /**
   * A pair logged with whole-second bounds resolves, on reload, to the
   * first film and the first game with those bounds.
   */
  lemma WholeSecondRowResolves(m: MatcherState, fi: nat, gi: nat)
    requires Valid(m) && fi < |m.films| && gi < |m.games|
    requires WholeSeconds(m.films[fi].span) && WholeSeconds(m.games[gi].span)
    ensures var r := ResolveRow(m.films, m.games, FormatMatchRow(m.films[fi].span, m.games[gi].span));
      && r.Ok? && r.value.Some?
      && r.value.value.0 <= fi && m.films[r.value.value.0].span == m.films[fi].span
      && r.value.value.1 <= gi && m.games[r.value.value.1].span == m.games[gi].span
      && (forall j :: 0 <= j < r.value.value.0 ==> m.films[j].span != m.films[fi].span)
      && (forall j :: 0 <= j < r.value.value.1 ==> m.games[j].span != m.games[gi].span)
  {
    WholeSecondRowReadsBack(m.films[fi].span, m.games[gi].span);
  }

  /** A row of whole-second spans reads back as exactly those spans. */
  lemma WholeSecondRowReadsBack(fs: Span, gs: Span)
    requires WholeSeconds(fs) && WholeSeconds(gs)
    ensures var row := FormatMatchRow(fs, gs);
      && RowTimesParse(row)
      && Span(ParseTime(row.filmStart).value, ParseTime(row.filmEnd).value) == fs
      && Span(ParseTime(row.gameStart).value, ParseTime(row.gameEnd).value) == gs
  {
    ParseMatchRow(fs, gs);
  }

  /**
   * A pair whose film has a fractional bound is logged with truncated
   * bounds, so on reload it never resolves to that film.
   */
  lemma FractionalRowMissesFilm(m: MatcherState, fi: nat, gi: nat)
    requires Valid(m) && fi < |m.films| && gi < |m.games|
    requires !WholeSeconds(m.films[fi].span)
    ensures var r := ResolveRow(m.films, m.games, FormatMatchRow(m.films[fi].span, m.games[gi].span));
      r.Ok? && (r.value.None? || r.value.value.0 != fi)
  {
    ParseMatchRow(m.films[fi].span, m.games[gi].span);
  }

  // ---------------------------------------------------------------
  // Start-up
  // ---------------------------------------------------------------

  /** The empty matrix: an empty list for every film id. */
  function EmptyLinks(filmCount: nat): (r: map<nat, seq<nat>>)
    ensures forall f: nat :: f in r <==> f < filmCount
    ensures forall f :: f in r ==> r[f] == []
  {
    if filmCount == 0 then map[]
    else
      var r := EmptyLinks(filmCount - 1)[filmCount - 1 := []];
      assert forall f: nat :: f < filmCount ==> f in r;
      r
  }

  /**
   * The state right after loading: an empty list for every film, nothing
   * selected and both lists at the top.
   */
  function Fresh(films: seq<Interval>, games: seq<Interval>, log: Option<seq<MatchRow>>,
                 listTop: int, listHeight: int): (m: MatcherState)
    requires IdsArePositions(films) && IdsArePositions(games)
    ensures Valid(m)
    ensures m.films == films && m.games == games && m.log == log
    ensures m.selectedFilm.None? && m.selectedGame.None?
    ensures m.filmList == NewList(listTop, listHeight) && m.gameList == NewList(listTop, listHeight)
    ensures forall f: nat :: f in m.links <==> f < |films|
    ensures forall f :: f in m.links ==> m.links[f] == []
  {
    MatcherState(films, games, EmptyLinks(|films|), None, None, log,
                 NewList(listTop, listHeight), NewList(listTop, listHeight))
  }

  /**
   * The constructor's data part: load both interval files, start fresh,
   * then replay the match log if there is one. Both lists share a top
   * edge and a height.
   */
  function Init(filmFile: Option<seq<TimeRow>>, gameFile: Option<seq<TimeRow>>,
                matchFile: Option<seq<MatchRow>>, listTop: int, listHeight: int): (r: Result<MatcherState, TimeError>)
    ensures r.Ok? <==>
      && LoadStore(filmFile).Ok? && LoadStore(gameFile).Ok?
      && (matchFile.Some? ==> AllRowsParse(matchFile.value))
    ensures r.Ok? ==> Valid(r.value) && r.value.selectedFilm.None? && r.value.selectedGame.None?
    ensures r.Ok? ==>
      && SpansOf(r.value.films) == SpansOf(LoadStore(filmFile).value)
      && SpansOf(r.value.games) == SpansOf(LoadStore(gameFile).value)
    ensures r.Ok? ==> SortedByStart(SpansOf(r.value.films)) && SortedByStart(SpansOf(r.value.games))
    ensures r.Ok? ==> r.value.log == matchFile
    ensures r.Ok? ==> r.value.filmList == NewList(listTop, listHeight) && r.value.gameList == NewList(listTop, listHeight)
    ensures r.Ok? && matchFile.None? ==> forall f :: f in r.value.links ==> r.value.links[f] == []
    ensures r.Ok? && matchFile.Some? ==>
      forall f: nat, g: nat :: f < |r.value.films| ==>
        && f in r.value.links
        && (g in r.value.links[f] <==>
              exists i :: 0 <= i < |matchFile.value| &&
                ResolveRow(LoadStore(filmFile).value, LoadStore(gameFile).value, matchFile.value[i]) == Ok(Some((f, g))))
  {
    var films :- LoadStore(filmFile);
    var games :- LoadStore(gameFile);
    var m := Fresh(films, games, matchFile, listTop, listHeight);
    if matchFile.None? then Ok(m)
    else
      var r := Replay(m, matchFile.value);
      if r.Ok? then ReplayFromFresh(m, matchFile.value); r else r
  }

  /**
   * Replaying the log over empty lists links film `f` to game `g` exactly
   * when some row resolves to that pair.
   */
  lemma ReplayFromFresh(m: MatcherState, rows: seq<MatchRow>)
    requires Valid(m) && Replay(m, rows).Ok?
    requires forall f :: f in m.links ==> m.links[f] == []
    ensures forall f: nat, g: nat :: f < |m.films| ==>
      && f in Replay(m, rows).value.links
      && (g in Replay(m, rows).value.links[f] <==>
            exists i :: 0 <= i < |rows| && ResolveRow(m.films, m.games, rows[i]) == Ok(Some((f, g))))
  {
    var links := Replay(m, rows).value.links;
    forall f: nat, g: nat | f < |m.films|
      ensures f in links
      ensures g in links[f] <==> exists i :: 0 <= i < |rows| && Resolves(m, rows[i], f, g)
    {
      ReplayLinks(m, rows, f, g);
      assert g !in m.links[f];
    }
  }

  /** Without a match log the program starts with every film's list empty. */
  lemma InitWithoutLog(filmFile: Option<seq<TimeRow>>, gameFile: Option<seq<TimeRow>>, listTop: int, listHeight: int)
    requires Init(filmFile, gameFile, None, listTop, listHeight).Ok?
    ensures var m := Init(filmFile, gameFile, None, listTop, listHeight).value;
      forall f :: f in m.links ==> m.links[f] == []
  {
  }

  // ---------------------------------------------------------------
  // Events
  // ---------------------------------------------------------------

  /**
   * The selection part of `handle_list_click`, as written: each list the
   * click lands on selects the row `get_clicked_index` computes from the
   * click's height plus the scroll offset; the other selection stays.
   */
  function HandleListClick(m: MatcherState, filmHit: bool, gameHit: bool, y: int): (r: MatcherState)
    requires Valid(m)
    ensures Valid(r)
    ensures r == m.(selectedFilm := r.selectedFilm, selectedGame := r.selectedGame)
    ensures r.selectedFilm == (match ClickedIndex(m.filmList, |m.films|, filmHit, y)
                               case Some(i) => Some(i)
                               case None => m.selectedFilm)
    ensures r.selectedGame == (match ClickedIndex(m.gameList, |m.games|, gameHit, y)
                               case Some(j) => Some(j)
                               case None => m.selectedGame)
  {
    var film := ClickedIndex(m.filmList, |m.films|, filmHit, y);
    var game := ClickedIndex(m.gameList, |m.games|, gameHit, y);
    m.(selectedFilm := if film.Some? then Some(film.value) else m.selectedFilm,
       selectedGame := if game.Some? then Some(game.value) else m.selectedGame)
  }

  /**
   * A click on the film list selects film `i` exactly when the click's
   * height inside the list, plus the scroll offset, falls in the `i`-th
   * band of row height.
   */
  lemma ClickSelectsOffsetBand(m: MatcherState, gameHit: bool, y: int, i: nat)
    requires Valid(m) && i < |m.films|
    ensures var l := m.filmList;
      ClickedIndex(l, |m.films|, true, y) == Some(i) <==>
        i * l.itemHeight <= y - l.top + l.offset < (i + 1) * l.itemHeight
    ensures ClickedIndex(m.filmList, |m.films|, true, y) == Some(i) ==>
      HandleListClick(m, true, gameHit, y).selectedFilm == Some(i)
  {
    var l := m.filmList;
    var rel := y - l.top + l.offset;
    if i * l.itemHeight <= rel < (i + 1) * l.itemHeight {
      DivOfBand(rel, l.itemHeight, i);
      MulMonotone(i + 1, |m.films|, l.itemHeight);
    }
  }

  /**
   * The film list of the main window, 730 pixels high at top 60 with 30
   * films and scrolled to its end, sits at offset 110: a click 5 pixels
   * below its top, inside the band where film 3 is drawn, selects film 4.
   */
  lemma ClickInDrawnFilmSelectsNext(m: MatcherState)
    requires Valid(m) && |m.films| == 30 && m.filmList == ScrollList(60, 730, DefaultItemHeight, 110)
    ensures MaxOffset(m.filmList, 30) == 110
    ensures Drawn(m.filmList, 30, 3) && RowTop(m.filmList, 3) <= 65 < RowTop(m.filmList, 3) + DefaultItemHeight
    ensures HandleListClick(m, true, false, 65).selectedFilm == Some(4)
  {
    ClickBelowDrawnRow();
  }

  /**
   * The selection the click was evidently meant to make: each list the
   * click lands on selects the row drawn under it.
   */
  function HandleListClickIntended(m: MatcherState, filmHit: bool, gameHit: bool, y: int): (r: MatcherState)
    requires Valid(m)
    ensures Valid(r)
    ensures r == m.(selectedFilm := r.selectedFilm, selectedGame := r.selectedGame)
    ensures r.selectedFilm == (match ClickedRow(m.filmList, |m.films|, filmHit, y)
                               case Some(i) => Some(i)
                               case None => m.selectedFilm)
    ensures r.selectedGame == (match ClickedRow(m.gameList, |m.games|, gameHit, y)
                               case Some(j) => Some(j)
                               case None => m.selectedGame)
  {
    var film := ClickedRow(m.filmList, |m.films|, filmHit, y);
    var game := ClickedRow(m.gameList, |m.games|, gameHit, y);
    m.(selectedFilm := if film.Some? then Some(film.value) else m.selectedFilm,
       selectedGame := if game.Some? then Some(game.value) else m.selectedGame)
  }

  /** With the intended selection, a click inside the band where film row `i` is drawn selects film `i`. */
  lemma ClickOnDrawnFilmSelectsIt(m: MatcherState, gameHit: bool, y: int, i: nat)
    requires Valid(m) && i < |m.films|
    requires RowTop(m.filmList, i) <= y < RowTop(m.filmList, i) + m.filmList.itemHeight
    ensures HandleListClickIntended(m, true, gameHit, y).selectedFilm == Some(i)
  {
    ClickedRowIsDrawnRow(m.filmList, |m.films|, y, i);
  }

  datatype MatcherEvent =
    | MatchKey
    | UnmatchKey
    | MouseDown(button: int, filmHit: bool, gameHit: bool, y: int)

  /**
   * One event of `handle_events`. Any mouse button first selects what it
   * lands on; the wheel then scrolls both lists by one notch.
   */
  function Step(m: MatcherState, e: MatcherEvent): (r: MatcherState)
    requires Valid(m)
    ensures Valid(r)
    ensures SpansOf(r.films) == SpansOf(m.films) && SpansOf(r.games) == SpansOf(m.games)
    ensures e.MouseDown? ==> r.links == m.links && r.log == m.log && r.films == m.films && r.games == m.games
    ensures e.MouseDown? && e.button != 4 && e.button != 5 ==>
      r.filmList == m.filmList && r.gameList == m.gameList
    ensures e.MouseDown? ==>
      r.selectedFilm == (match ClickedIndex(m.filmList, |m.films|, e.filmHit, e.y)
                         case Some(i) => Some(i)
                         case None => m.selectedFilm)
    ensures e.MouseDown? ==>
      r.selectedGame == (match ClickedIndex(m.gameList, |m.games|, e.gameHit, e.y)
                         case Some(j) => Some(j)
                         case None => m.selectedGame)
    ensures e.MatchKey? ==> r == MatchSelected(m)
    ensures e.UnmatchKey? ==> r == UnmatchSelected(m)
    ensures e.MouseDown? && (e.button == 4 || e.button == 5) ==>
      var clicked := HandleListClick(m, e.filmHit, e.gameHit, e.y);
      var delta := if e.button == 4 then -WheelStep else WheelStep;
      && r.filmList == Scroll(clicked.filmList, |m.films|, delta)
      && r.gameList == Scroll(clicked.gameList, |m.games|, delta)
      && r.selectedFilm == clicked.selectedFilm && r.selectedGame == clicked.selectedGame
  {
    match e
    case MatchKey => MatchSelected(m)
    case UnmatchKey => UnmatchSelected(m)
    case MouseDown(button, filmHit, gameHit, y) =>
      var clicked := HandleListClick(m, filmHit, gameHit, y);
      if button == 4 then
        clicked.(filmList := Scroll(clicked.filmList, |m.films|, -WheelStep),
                 gameList := Scroll(clicked.gameList, |m.games|, -WheelStep))
      else if button == 5 then
        clicked.(filmList := Scroll(clicked.filmList, |m.films|, WheelStep),
                 gameList := Scroll(clicked.gameList, |m.games|, WheelStep))
      else clicked
  }

  /** Every state reached from a valid one by any run of events is valid. */
  function Run(m: MatcherState, events: seq<MatcherEvent>): (r: MatcherState)
    requires Valid(m)
    ensures Valid(r)
    ensures SpansOf(r.films) == SpansOf(m.films) && SpansOf(r.games) == SpansOf(m.games)
    decreases |events|
  {
    if |events| == 0 then m else Run(Step(m, events[0]), events[1..])
  }
}

=== FILE: matchlog.dfy ===
/**
 * The match log `matches.csv`: one row of four `HH:MM:SS` cells per
 * link made, appended on every match and filtered on every unmatch. An
 * absent file is `None`; the header line is not modelled as a row.
 */
module MatchLog {
  import opened Wrappers
  import opened TimeCodec
  import opened IntervalStore

  /** A data row of the match log, cells as written. */
  datatype MatchRow = MatchRow(filmStart: string, filmEnd: string, gameStart: string, gameEnd: string)

  /** The row `append_match_csv` writes for a film and a game interval. */
  function FormatMatchRow(film: Span, game: Span): MatchRow
  {
    MatchRow(FormatHms(film.start), FormatHms(film.end), FormatHms(game.start), FormatHms(game.end))
  }

  /** Every cell of a written row reads back as its bound cut to whole seconds. */
  lemma ParseMatchRow(film: Span, game: Span)
    ensures var r := FormatMatchRow(film, game);
      && ParseTime(r.filmStart) == Ok(Trunc(film.start) as real)
      && ParseTime(r.filmEnd) == Ok(Trunc(film.end) as real)
      && ParseTime(r.gameStart) == Ok(Trunc(game.start) as real)
      && ParseTime(r.gameEnd) == Ok(Trunc(game.end) as real)
  {
    ParseFormatHms(film.start);
    ParseFormatHms(film.end);
    ParseFormatHms(game.start);
    ParseFormatHms(game.end);
  }

  /** The rows of a log, an absent file having none. */
  function Rows(log: Option<seq<MatchRow>>): seq<MatchRow>
  {
    if log.Some? then log.value else []
  }

  /**
   * `append_match_csv`: the file afterwards exists and holds the old rows
   * and then `row`; a new file first gets its header.
   */
  function AppendRow(log: Option<seq<MatchRow>>, row: MatchRow): (r: Option<seq<MatchRow>>)
    ensures r.Some?
    ensures |r.value| == |Rows(log)| + 1
    ensures r.value[..|Rows(log)|] == Rows(log) && r.value[|Rows(log)|] == row
  {
    Some(Rows(log) + [row])
  }

  /** Row and key agree cell by cell once surrounding whitespace is stripped. */
  predicate RowMatches(row: MatchRow, key: MatchRow)
  {
    && Strip(row.filmStart) == Strip(key.filmStart)
    && Strip(row.filmEnd) == Strip(key.filmEnd)
    && Strip(row.gameStart) == Strip(key.gameStart)
    && Strip(row.gameEnd) == Strip(key.gameEnd)
  }

  /** The rows that do not match `key`, in their original order. */
  function Keep(rows: seq<MatchRow>, key: MatchRow): (r: seq<MatchRow>)
    ensures |r| <= |rows|
    ensures forall x :: x in r ==> x in rows && !RowMatches(x, key)
  {
    if |rows| == 0 then []
    else (if RowMatches(rows[0], key) then [] else [rows[0]]) + Keep(rows[1..], key)
  }

  /**
   * `remove_match_csv`: nothing happens when there is no file; otherwise
   * the file is rewritten with the rows that do not match `key`.
   */
  function RemoveRows(log: Option<seq<MatchRow>>, key: MatchRow): (r: Option<seq<MatchRow>>)
    ensures r.None? <==> log.None?
    ensures r.Some? ==> forall x :: x in r.value ==> x in log.value && !RowMatches(x, key)
    ensures r.Some? ==> forall x :: multiset(r.value)[x] == if RowMatches(x, key) then 0 else multiset(log.value)[x]
  {
    match log
    case None => None
    case Some(rows) =>
      KeepCountsAll(rows, key);
      Some(Keep(rows, key))
  }

  lemma KeepCountsAll(rows: seq<MatchRow>, key: MatchRow)
    ensures forall x :: multiset(Keep(rows, key))[x] == if RowMatches(x, key) then 0 else multiset(rows)[x]
  {
    forall x
      ensures multiset(Keep(rows, key))[x] == if RowMatches(x, key) then 0 else multiset(rows)[x]
    {
      KeepCounts(rows, key, x);
    }
  }

  /**
   * The rewritten file keeps the surviving rows in their old order: rows
   * before and after any cut survive on their own side of it.
   */
  lemma RemoveRowsKeepsOrder(a: seq<MatchRow>, b: seq<MatchRow>, key: MatchRow)
    ensures RemoveRows(Some(a + b), key).value == RemoveRows(Some(a), key).value + RemoveRows(Some(b), key).value
  {
    KeepAppend(a, b, key);
  }

  /** Filtering distributes over concatenation, so the surviving rows keep their order. */
  lemma {:induction false} KeepAppend(a: seq<MatchRow>, b: seq<MatchRow>, key: MatchRow)
    ensures Keep(a + b, key) == Keep(a, key) + Keep(b, key)
  {
    if |a| == 0 {
      assert a + b == b;
    } else {
      var head := if RowMatches(a[0], key) then [] else [a[0]];
      assert (a + b)[0] == a[0] && (a + b)[1..] == a[1..] + b;
      assert Keep(a + b, key) == head + Keep(a[1..] + b, key);
      KeepAppend(a[1..], b, key);
      assert head + (Keep(a[1..], key) + Keep(b, key)) == (head + Keep(a[1..], key)) + Keep(b, key);
    }
  }

  /** Each non-matching row survives as often as it occurs; a matching row never does. */
  lemma {:induction false} KeepCounts(rows: seq<MatchRow>, key: MatchRow, x: MatchRow)
    ensures multiset(Keep(rows, key))[x] == if RowMatches(x, key) then 0 else multiset(rows)[x]
  {
    if |rows| > 0 {
      KeepCounts(rows[1..], key, x);
      assert rows == [rows[0]] + rows[1..];
    }
  }

  /** When no row matches, the file is rewritten unchanged. */
  lemma {:induction false} KeepNoMatch(rows: seq<MatchRow>, key: MatchRow)
    requires forall i :: 0 <= i < |rows| ==> !RowMatches(rows[i], key)
    ensures Keep(rows, key) == rows
  {
    if |rows| > 0 {
      KeepNoMatch(rows[1..], key);
    }
  }

  /** Filtering twice by the same key is filtering once. */
  lemma KeepIdempotent(rows: seq<MatchRow>, key: MatchRow)
    ensures Keep(Keep(rows, key), key) == Keep(rows, key)
  {
    var r := Keep(rows, key);
    KeepNoMatch(r, key);
  }

  /**
   * Removing the row just appended, by the same key, leaves the rows the
   * log had before minus those matching the key.
   */
  lemma RemoveAppended(log: Option<seq<MatchRow>>, row: MatchRow)
    ensures RemoveRows(AppendRow(log, row), row) == Some(Keep(Rows(log), row))
  {
    KeepAppend(Rows(log), [row], row);
    assert [row][1..] == [];
    assert Keep([row], row) == [];
    assert Keep(Rows(log), row) + [] == Keep(Rows(log), row);
  }

  /** ... and if none of them matched, exactly the rows it had before. */
  lemma RemoveAppendedRestores(log: Option<seq<MatchRow>>, row: MatchRow)
    requires forall i :: 0 <= i < |Rows(log)| ==> !RowMatches(Rows(log)[i], row)
    ensures RemoveRows(AppendRow(log, row), row) == Some(Rows(log))
  {
    RemoveAppended(log, row);
    KeepNoMatch(Rows(log), row);
  }
}

=== FILE: scrolllists.dfy ===
/**
 * The scrollable interval lists: the clamped scroll offset, the rows a
 * list draws, and which row a click lands on. A list's items are kept by
 * its owner, so every operation here takes their count.
 */
module ScrollLists {
  import opened Wrappers

  /** The row height every list of both programs uses. */
  const DefaultItemHeight: int := 28

  /**
   * The top edge and height of a list's rectangle, its row height and
   * its scroll offset, all in pixels.
   */
  datatype ScrollList = ScrollList(top: int, height: int, itemHeight: int, offset: int)

  /** A freshly built list: default row height, scrolled to the top. */
  function NewList(top: int, height: int): (l: ScrollList)
    ensures l.top == top && l.height == height
    ensures l.itemHeight == DefaultItemHeight && l.offset == 0
  {
    ScrollList(top, height, DefaultItemHeight, 0)
  }

  /** How far a list of `count` rows can scroll: the overhang of its rows, or 0. */
  function MaxOffset(l: ScrollList, count: nat): (r: int)
    ensures r >= 0 && r >= count * l.itemHeight - l.height
    ensures r == 0 || r == count * l.itemHeight - l.height
  {
    var overhang := count * l.itemHeight - l.height;
    if overhang > 0 then overhang else 0
  }

  predicate OffsetInRange(l: ScrollList, count: nat)
  {
    0 <= l.offset <= MaxOffset(l, count)
  }

  /**
   * `ScrollList.scroll`: move the offset by `delta`, then clamp it into
   * `[0, MaxOffset]`; nothing else about the list changes.
   */
  function Scroll(l: ScrollList, count: nat, delta: int): (r: ScrollList)
    ensures r == l.(offset := r.offset)
    ensures OffsetInRange(r, count)
    ensures 0 <= l.offset + delta <= MaxOffset(l, count) ==> r.offset == l.offset + delta
    ensures l.offset + delta < 0 ==> r.offset == 0
    ensures l.offset + delta > MaxOffset(l, count) ==> r.offset == MaxOffset(l, count)
  {
    var lowered := if l.offset + delta > 0 then l.offset + delta else 0;
    var maxOffset := MaxOffset(l, count);
    l.(offset := if lowered < maxOffset then lowered else maxOffset)
  }

  /** The clamped offset is the allowed offset nearest to the requested one. */
  lemma ScrollNearest(l: ScrollList, count: nat, delta: int, k: int)
    requires 0 <= k <= MaxOffset(l, count)
    ensures Abs(Scroll(l, count, delta).offset - (l.offset + delta)) <= Abs(k - (l.offset + delta))
  {
  }

  function Abs(x: int): (r: nat)
    ensures r == x || r == -x
  {
    if x < 0 then -x else x
  }

  /** Scrolling by nothing leaves a list alone exactly when its offset is in range. */
  lemma ScrollByZero(l: ScrollList, count: nat)
    ensures Scroll(l, count, 0) == l <==> OffsetInRange(l, count)
  {
  }

  /** A scroll that was not clamped is undone by the opposite scroll. */
  lemma ScrollUndo(l: ScrollList, count: nat, delta: int)
    requires OffsetInRange(l, count)
    requires 0 <= l.offset + delta <= MaxOffset(l, count)
    ensures Scroll(Scroll(l, count, delta), count, -delta) == l
  {
  }

  /** Scrolling further down never leaves the list higher up. */
  lemma ScrollMonotone(l: ScrollList, count: nat, d1: int, d2: int)
    requires d1 <= d2
    ensures Scroll(l, count, d1).offset <= Scroll(l, count, d2).offset
  {
  }

  /**
   * `ScrollList.visible_range`: the first row the offset reaches and how
   * many whole rows fit in the rectangle.
   */
  function VisibleRange(l: ScrollList): (r: (int, int))
    requires l.itemHeight > 0
    ensures r.0 * l.itemHeight <= l.offset < (r.0 + 1) * l.itemHeight
    ensures r.1 * l.itemHeight <= l.height < (r.1 + 1) * l.itemHeight
  {
    (l.offset / l.itemHeight, l.height / l.itemHeight)
  }

  /** Row `i` is drawn: it lies between the first visible row and the end of the list or the window. */
  predicate Drawn(l: ScrollList, count: nat, i: int)
    requires l.itemHeight > 0
  {
    var (first, visible) := VisibleRange(l);
    first <= i < count && i < first + visible
  }

  /** The top edge of the band in which row `i` is drawn. */
  function RowTop(l: ScrollList, i: int): int
    requires l.itemHeight > 0
  {
    l.top + (i - VisibleRange(l).0) * l.itemHeight
  }

  /**
   * `get_clicked_index`, as written: the click's height inside the list
   * plus the offset, divided by the row height, if that names a row.
   * `hit` is whether the click fell inside the list's rectangle.
   */
  function ClickedIndex(l: ScrollList, count: nat, hit: bool, y: int): (r: Option<nat>)
    requires l.itemHeight > 0
    ensures r.Some? <==> hit && 0 <= y - l.top + l.offset < count * l.itemHeight
    ensures r.Some? ==> r.value < count
    ensures r.Some? ==> r.value * l.itemHeight <= y - l.top + l.offset < (r.value + 1) * l.itemHeight
  {
    var rel := y - l.top + l.offset;
    DivBounds(rel, l.itemHeight, count);
    if !hit then None
    else
      var idx := rel / l.itemHeight;
      if 0 <= idx < count then Some(idx) else None
  }

  /**
   * The row a click lands on, counted the way rows are drawn: the first
   * visible row plus the click's whole rows below the list's top.
   */
  function ClickedRow(l: ScrollList, count: nat, hit: bool, y: int): (r: Option<nat>)
    requires l.itemHeight > 0
    ensures r.Some? ==> hit && r.value < count
    ensures r.Some? ==> RowTop(l, r.value) <= y < RowTop(l, r.value) + l.itemHeight
  {
    var idx := VisibleRange(l).0 + (y - l.top) / l.itemHeight;
    if hit && 0 <= idx < count then Some(idx) else None
  }

  /** A click inside the band where row `i` is drawn selects row `i`. */
  lemma ClickedRowIsDrawnRow(l: ScrollList, count: nat, y: int, i: nat)
    requires l.itemHeight > 0 && i < count
    requires RowTop(l, i) <= y < RowTop(l, i) + l.itemHeight
    ensures ClickedRow(l, count, true, y) == Some(i)
  {
    var first := VisibleRange(l).0;
    var k := i - first;
    assert l.top + k * l.itemHeight <= y < l.top + k * l.itemHeight + l.itemHeight;
    DivOfBand(y - l.top, l.itemHeight, k);
  }

  /** While the offset is a whole number of rows, both ways of counting agree. */
  lemma AlignedClicksAgree(l: ScrollList, count: nat, hit: bool, y: int)
    requires l.itemHeight > 0 && l.offset % l.itemHeight == 0
    ensures ClickedIndex(l, count, hit, y) == ClickedRow(l, count, hit, y)
  {
    var ih := l.itemHeight;
    var first := l.offset / ih;
    assert l.offset == first * ih;
    var k := (y - l.top) / ih;
    DivOfBand(y - l.top, ih, k);
    assert y - l.top + l.offset == (y - l.top) - k * ih + (first + k) * ih;
    DivOfBand(y - l.top + l.offset, ih, first + k);
  }

  /**
   * Scrolled to its end, a 730-pixel list of 30 rows sits at offset 110,
   * not a whole number of rows: a click 5 pixels below the top, inside
   * the band where row 3 is drawn, selects row 4.
   */
  lemma ClickBelowDrawnRow()
    ensures var l := ScrollList(60, 730, DefaultItemHeight, 110);
      && MaxOffset(l, 30) == 110
      && Drawn(l, 30, 3) && RowTop(l, 3) <= 65 < RowTop(l, 3) + DefaultItemHeight
      && ClickedIndex(l, 30, true, 65) == Some(4)
      && ClickedRow(l, 30, true, 65) == Some(3)
  {
    var l := ScrollList(60, 730, DefaultItemHeight, 110);
    assert VisibleRange(l) == (3, 26);
  }

  /** `a / b` is `k` exactly when `a` lies in the `k`-th band of height `b`. */
  lemma DivOfBand(a: int, b: int, k: int)
    requires b > 0 && k * b <= a < k * b + b
    ensures a / b == k
  {
    var q, r := a / b, a % b;
    assert a == q * b + r && 0 <= r < b;
    if q < k {
      MulMonotone(q + 1, k, b);
    } else if q > k {
      MulMonotone(k + 1, q, b);
    }
  }

  lemma MulMonotone(x: int, y: int, b: int)
    requires x <= y && b > 0
    ensures x * b <= y * b
  {
    assert y * b - x * b == (y - x) * b;
  }

  /** A quotient is in `[0, k)` exactly when the dividend is in `[0, k*b)`. */
  lemma DivBounds(a: int, b: int, k: int)
    requires b > 0
    ensures 0 <= a / b < k <==> 0 <= a < k * b
  {
    var q := a / b;
    assert a == q * b + a % b && 0 <= a % b < b;
    if 0 <= q < k {
      MulMonotone(0, q, b);
      MulMonotone(q + 1, k, b);
    } else if q < 0 {
      MulMonotone(q, -1, b);
    } else {
      MulMonotone(k, q, b);
    }
  }
}

=== FILE: timecodec.dfy ===
/**
 * The time codec shared by both applications.
 *
 * `parse_time` reads one CSV time field: a colon-separated `H:MM:SS` or
 * `MM:SS` string, or a plain decimal number of seconds.
 * `VideoPanel.format_time` always writes three zero-padded fields and
 * `ControlBar.format_time` drops the hour field when it is zero.
 *
 * Times are `real` seconds.  Python's `int(x)` on a float truncates toward
 * zero; that is `Trunc`.  Python's `//` and `%` with a positive divisor
 * round toward minus infinity, which is what Dafny's `/` and `%` do for a
 * positive divisor, so the formatters use them directly.
 */
module TimeCodec {
  import opened Wrappers

  /** The `ValueError` raised by `int()` or `float()` on a malformed field. */
  datatype TimeError = MalformedTime(text: string)

  // ---------------------------------------------------------------------
  // Whitespace and `str.strip`
  // ---------------------------------------------------------------------

  /** The characters Python's `str.isspace` accepts. */
  predicate IsSpace(c: char)
  {
    || c == ' '
    || ('\t' <= c <= '\r')
    || ('\U{1C}' <= c <= '\U{1F}')
    || c == '\U{85}' || c == '\U{A0}' || c == '\U{1680}'
    || ('\U{2000}' <= c <= '\U{200A}')
    || c == '\U{2028}' || c == '\U{2029}' || c == '\U{202F}'
    || c == '\U{205F}' || c == '\U{3000}'
  }

  predicate AllSpace(s: string)
  {
    forall i :: 0 <= i < |s| ==> IsSpace(s[i])
  }

  /** Neither the first nor the last character is whitespace. */
  predicate NoEdgeSpace(s: string)
  {
    |s| == 0 || (!IsSpace(s[0]) && !IsSpace(s[|s| - 1]))
  }

  function TrimStart(s: string): (r: string)
    ensures |r| <= |s|
    ensures |r| == 0 || !IsSpace(r[0])
  {
    if |s| > 0 && IsSpace(s[0]) then TrimStart(s[1..]) else s
  }

  function TrimEnd(s: string): (r: string)
    ensures |r| <= |s|
    ensures |r| > 0 ==> r[0] == s[0]
    ensures |r| == 0 || !IsSpace(r[|r| - 1])
  {
    if |s| > 0 && IsSpace(s[|s| - 1]) then TrimEnd(s[..|s| - 1]) else s
  }

  /** Python's `str.strip()` with no argument. */
  function Strip(s: string): (r: string)
    ensures NoEdgeSpace(r)
    ensures |r| <= |s|
  {
    TrimEnd(TrimStart(s))
  }

  /**
   * Stripping cuts off whitespace at both ends and nothing else: the
   * result is a slice of `s` with only whitespace before and after it.
   */
  lemma StripShape(s: string)
    ensures exists i, j :: 0 <= i <= j <= |s| && Strip(s) == s[i..j] && AllSpace(s[..i]) && AllSpace(s[j..])
  {
    var t := TrimStart(s);
    var r := TrimEnd(t);
    TrimStartShape(s);
    TrimEndShape(t);
    var i := |s| - |t|;
    var j := i + |r|;
    assert r == s[i..j];
    assert s[j..] == t[|r|..];
  }

  /** Leading trimming drops exactly a whitespace prefix. */
  lemma {:induction false} TrimStartShape(s: string)
    ensures TrimStart(s) == s[|s| - |TrimStart(s)|..]
    ensures AllSpace(s[..|s| - |TrimStart(s)|])
  {
    if |s| > 0 && IsSpace(s[0]) {
      TrimStartShape(s[1..]);
      assert s[1..][|s| - 1 - |TrimStart(s)|..] == s[|s| - |TrimStart(s)|..];
      assert forall i :: 1 <= i < |s| - |TrimStart(s)| ==> s[i] == s[1..][i - 1];
    }
  }

  /** Trailing trimming drops exactly a whitespace suffix. */
  lemma {:induction false} TrimEndShape(s: string)
    ensures TrimEnd(s) == s[..|TrimEnd(s)|]
    ensures AllSpace(s[|TrimEnd(s)|..])
  {
    if |s| > 0 && IsSpace(s[|s| - 1]) {
      TrimEndShape(s[..|s| - 1]);
      assert s[..|s| - 1][..|TrimEnd(s)|] == s[..|TrimEnd(s)|];
      assert forall i :: |TrimEnd(s)| <= i < |s| - 1 ==> s[i] == s[..|s| - 1][i];
    }
  }

  /** Stripping leaves a string without edge whitespace as it is. */
  lemma StripKeeps(s: string)
    requires NoEdgeSpace(s)
    ensures Strip(s) == s
  {
  }

  // ---------------------------------------------------------------------
  // `str.split(":")` and its inverse
  // ---------------------------------------------------------------------

  predicate ColonFree(s: string)
  {
    ':' !in s
  }

  /** `":".join(parts)`. */
  function Join(parts: seq<string>): string
    requires |parts| >= 1
  {
    if |parts| == 1 then parts[0] else parts[0] + ":" + Join(parts[1..])
  }

  /** Python's `s.split(":")`: the colon-free pieces between the colons. */
  function Split(s: string): (parts: seq<string>)
    ensures |parts| >= 1
    ensures forall i :: 0 <= i < |parts| ==> ColonFree(parts[i])
    ensures Join(parts) == s
  {
    if |s| == 0 then [""]
    else
      var rest := Split(s[1..]);
      if s[0] == ':' then [""] + rest
      else
        var parts := [[s[0]] + rest[0]] + rest[1..];
        assert parts[1..] == rest[1..];
        parts
  }

  /** A string with a colon splits into at least two pieces. */
  lemma SplitOfColonString(s: string)
    requires ':' in s
    ensures |Split(s)| >= 2
  {
  }

  lemma {:induction false} SplitColonFree(a: string)
    requires ColonFree(a)
    ensures Split(a) == [a]
  {
    if |a| > 0 {
      SplitColonFree(a[1..]);
    }
  }

  lemma {:induction false} SplitAfterPiece(a: string, rest: string)
    requires ColonFree(a)
    ensures Split(a + ":" + rest) == [a] + Split(rest)
  {
    if |a| == 0 {
      assert (a + ":" + rest)[1..] == rest;
    } else {
      assert (a + ":" + rest)[1..] == a[1..] + ":" + rest;
      SplitAfterPiece(a[1..], rest);
      assert [a[0]] + a[1..] == a;
    }
  }

  /** Splitting undoes joining colon-free pieces. */
  lemma {:induction false} SplitJoin(parts: seq<string>)
    requires |parts| >= 1
    requires forall i :: 0 <= i < |parts| ==> ColonFree(parts[i])
    ensures Split(Join(parts)) == parts
  {
    if |parts| == 1 {
      SplitColonFree(parts[0]);
    } else {
      SplitJoin(parts[1..]);
      SplitAfterPiece(parts[0], Join(parts[1..]));
      assert [parts[0]] + parts[1..] == parts;
    }
  }

  // ---------------------------------------------------------------------
  // Decimal digits
  // ---------------------------------------------------------------------

  predicate IsDigit(c: char)
  {
    '0' <= c <= '9'
  }

  predicate AllDigits(s: string)
  {
    forall i :: 0 <= i < |s| ==> IsDigit(s[i])
  }

  function DigitChar(d: nat): (c: char)
    requires d < 10
    ensures IsDigit(c) && (c as int) - ('0' as int) == d
  {
    ('0' as int + d) as char
  }

  /** The number a string of decimal digits denotes; leading zeros allowed. */
  function DigitsValue(ds: string): nat
    requires AllDigits(ds)
  {
    if |ds| == 0 then 0
    else 10 * DigitsValue(ds[..|ds| - 1]) + ((ds[|ds| - 1] as int) - ('0' as int))
  }

  /** The value of the digits after a decimal point: `0.d1d2...` */
  function FractionValue(ds: string): (v: real)
    requires AllDigits(ds)
  {
    if |ds| == 0 then 0.0
    else (((ds[0] as int) - ('0' as int)) as real + FractionValue(ds[1..])) / 10.0
  }

  /** Digits after the point add less than one. */
  lemma {:induction false} FractionBelowOne(ds: string)
    requires AllDigits(ds)
    ensures 0.0 <= FractionValue(ds) < 1.0
  {
    if |ds| > 0 {
      FractionBelowOne(ds[1..]);
    }
  }

  /** A leading zero does not change the value. */
  lemma {:induction false} DigitsValueLeadingZero(ds: string)
    requires AllDigits(ds)
    ensures AllDigits("0" + ds) && DigitsValue("0" + ds) == DigitsValue(ds)
  {
    if |ds| > 0 {
      assert ("0" + ds)[..|ds|] == "0" + ds[..|ds| - 1];
      DigitsValueLeadingZero(ds[..|ds| - 1]);
    }
  }

  /** `str(n)` for a natural number: shortest decimal form, read back exactly. */
  function ShowNat(n: nat): (r: string)
    ensures |r| >= 1 && AllDigits(r)
    ensures |r| > 1 ==> r[0] != '0'
    ensures n < 10 ==> |r| == 1
    ensures n < 100 ==> |r| <= 2
    ensures DigitsValue(r) == n
    decreases n
  {
    if n < 10 then [DigitChar(n)]
    else
      var r := ShowNat(n / 10) + [DigitChar(n % 10)];
      assert r[..|r| - 1] == ShowNat(n / 10);
      r
  }

  /** Python's `f"{n:02d}"`: zero-padded to two characters, sign first. */
  function Pad2(n: int): (r: string)
    ensures |r| >= 2
    ensures 0 <= n < 100 ==> |r| == 2
    ensures forall i :: 0 < i < |r| ==> IsDigit(r[i])
    ensures IsDigit(r[0]) || (r[0] == '-' && n < 0)
    ensures |r| > 2 ==> r[0] != '0'
    ensures n < 0 ==> r[1] != '0'
  {
    if n < 0 then "-" + ShowNat(-n)
    else if n < 10 then "0" + ShowNat(n)
    else ShowNat(n)
  }

  lemma Pad2Clean(n: int)
    ensures ColonFree(Pad2(n)) && NoEdgeSpace(Pad2(n))
    ensures 0 <= n ==> AllDigits(Pad2(n))
  {
    var r := Pad2(n);
    forall i | 0 <= i < |r|
      ensures r[i] != ':'
    {
      if i > 0 {
        assert IsDigit(r[i]);
      }
    }
  }

  // ---------------------------------------------------------------------
  // `int()` and `float()` on a field
  // ---------------------------------------------------------------------

  /** The text after an optional leading sign. */
  function Unsigned(t: string): string
  {
    if |t| > 0 && (t[0] == '+' || t[0] == '-') then t[1..] else t
  }

  /** Python's `int(text)` on ASCII decimal digits with an optional sign. */
  function ParseInt(text: string): Result<int, TimeError>
  {
    var t := Strip(text);
    var digits := Unsigned(t);
    if |digits| > 0 && AllDigits(digits) then
      Ok(if t[0] == '-' then -(DigitsValue(digits) as int) else DigitsValue(digits) as int)
    else Err(MalformedTime(text))
  }

  /** `int(f"{n:02d}") == n` for every integer. */
  lemma ParseIntPad2(n: int)
    ensures ParseInt(Pad2(n)) == Ok(n)
  {
    var t := Pad2(n);
    Pad2Clean(n);
    StripKeeps(t);
    if n < 0 {
      assert t == "-" + ShowNat(-n) && Unsigned(t) == ShowNat(-n);
    } else if n < 10 {
      assert t == "0" + ShowNat(n) && Unsigned(t) == t;
      DigitsValueLeadingZero(ShowNat(n));
    } else {
      assert t == ShowNat(n) && Unsigned(t) == t;
    }
  }

  function IndexOf(s: string, c: char): (i: nat)
    ensures i <= |s|
    ensures i < |s| ==> s[i] == c
    ensures forall j :: 0 <= j < i ==> s[j] != c
  {
    if |s| == 0 then 0
    else if s[0] == c then 0
    else 1 + IndexOf(s[1..], c)
  }

  /**
   * Python's `float(text)` on a plain decimal: optional sign, digits with an
   * optional fraction, at least one digit in all.
   */
  function ParseDecimal(text: string): Result<real, TimeError>
  {
    var t := Strip(text);
    match DecimalMagnitude(Unsigned(t))
    case Some(mag) => Ok(if t[0] == '-' then -mag else mag)
    case None => Err(MalformedTime(text))
  }

  /** The unsigned part: digits, then an optional dot and fraction digits. */
  function DecimalMagnitude(body: string): (r: Option<real>)
    ensures r.Some? ==> |body| > 0
  {
    var dot := IndexOf(body, '.');
    var whole := body[..dot];
    var frac := if dot < |body| then body[dot + 1..] else [];
    if AllDigits(whole) && AllDigits(frac) && |whole| + |frac| > 0 then
      Some(DecimalValue(whole, frac))
    else None
  }

  /** The integer part plus the fraction. */
  function DecimalValue(whole: string, frac: string): real
    requires AllDigits(whole) && AllDigits(frac)
  {
    DigitsValue(whole) as real + FractionValue(frac)
  }

  /** The first dot of `w.f` with an all-digit `w` is the one after `w`. */
  lemma IndexOfDotAfterDigits(w: string, f: string)
    requires AllDigits(w)
    ensures IndexOf(w + "." + f, '.') == |w|
  {
    var s := w + "." + f;
    var i := IndexOf(s, '.');
    assert s[|w|] == '.';
    assert forall j :: 0 <= j < |w| ==> s[j] == w[j];
  }

  lemma ParseWholeDotFraction(w: string, f: string)
    requires AllDigits(w) && AllDigits(f) && |w| > 0
    ensures ParseDecimal(w + "." + f).Ok?
    ensures ParseDecimal(w + "." + f).value == DecimalValue(w, f)
  {
    DecimalTextShape(w, f);
    MagnitudeOfDot(w, f);
  }

  lemma DecimalTextShape(w: string, f: string)
    requires AllDigits(w) && AllDigits(f) && |w| > 0
    ensures var s := w + "." + f;
      && Strip(s) == s && Unsigned(s) == s && IndexOf(s, '.') == |w|
      && s[..|w|] == w && s[|w| + 1..] == f
  {
    var s := w + "." + f;
    assert s[0] == w[0];
    assert NoEdgeSpace(s) by {
      if |f| > 0 {
        assert s[|s| - 1] == f[|f| - 1];
      }
    }
    StripKeeps(s);
    assert Unsigned(s) == s;
    IndexOfDotAfterDigits(w, f);
    assert s[..|w|] == w;
    assert s[|w| + 1..] == f;
  }

  lemma TruncWholePlusFraction(w: nat, f: real)
    requires 0.0 <= f < 1.0
    ensures Trunc(w as real + f) == w
  {
  }

  /**
   * An unsigned decimal `w.f` reads as a value whose truncation is the
   * integer part `w`: the part `format_time` keeps.
   */
  lemma DecimalTruncatesToWholePart(w: string, f: string)
    requires AllDigits(w) && AllDigits(f) && |w| > 0
    ensures ParseDecimal(w + "." + f).Ok?
    ensures Trunc(ParseDecimal(w + "." + f).value) == DigitsValue(w)
  {
    ParseWholeDotFraction(w, f);
    FractionBelowOne(f);
    TruncWholePlusFraction(DigitsValue(w), FractionValue(f));
  }

  /**
   * A field with no colon is read by `float()`: an optional sign, then
   * `w.f`, reads as the integer part plus the fraction, negated under `-`.
   */
  lemma ParseTimeDecimal(sign: string, w: string, f: string)
    requires sign == "" || sign == "+" || sign == "-"
    requires AllDigits(w) && AllDigits(f) && |w| + |f| > 0
    ensures ParseTime(sign + w + "." + f).Ok?
    ensures ParseTime(sign + w + "." + f).value == if sign == "-" then -DecimalValue(w, f) else DecimalValue(w, f)
  {
    var body := w + "." + f;
    assert sign + body == sign + w + "." + f;
    MagnitudeOfDot(w, f);
    assert forall k :: 0 <= k < |body| ==> IsDigit(body[k]) || body[k] == '.';
    ParseTimeSigned(sign, body, DecimalValue(w, f));
  }

  /** A field of digits alone, with an optional sign, reads as their value. */
  lemma ParseTimeWhole(sign: string, w: string)
    requires sign == "" || sign == "+" || sign == "-"
    requires AllDigits(w) && |w| > 0
    ensures ParseTime(sign + w).Ok?
    ensures ParseTime(sign + w).value == if sign == "-" then -(DigitsValue(w) as real) else DigitsValue(w) as real
  {
    MagnitudeOfWhole(w);
    assert forall k :: 0 <= k < |w| ==> IsDigit(w[k]) || w[k] == '.';
    ParseTimeSigned(sign, w, DigitsValue(w) as real);
  }

  /**
   * `parse_time` on a sign and a run of digits and dots: the magnitude of
   * the run, negated under `-`.
   */
  lemma ParseTimeSigned(sign: string, body: string, mag: real)
    requires sign == "" || sign == "+" || sign == "-"
    requires |body| > 0 && forall k :: 0 <= k < |body| ==> IsDigit(body[k]) || body[k] == '.'
    requires DecimalMagnitude(body) == Some(mag)
    ensures ParseTime(sign + body).Ok?
    ensures ParseTime(sign + body).value == if sign == "-" then -mag else mag
  {
    DecimalTextClean(sign, body);
    SignThenBody(sign, body);
    ParseTimeOfMagnitude(sign + body, mag);
  }

  /** A sign before text that does not start with one is the sign `Unsigned` drops. */
  lemma SignThenBody(sign: string, body: string)
    requires sign == "" || sign == "+" || sign == "-"
    requires |body| > 0 && body[0] != '+' && body[0] != '-'
    ensures var text := sign + body;
      |text| > 0 && Unsigned(text) == body && (text[0] == '-' <==> sign == "-")
  {
    var text := sign + body;
    if sign == "" {
      assert text == body;
    } else {
      assert text[1..] == body;
    }
  }

  /** `parse_time` on clean text with no colon: the magnitude of its unsigned part, negated under `-`. */
  lemma ParseTimeOfMagnitude(text: string, mag: real)
    requires ':' !in text && Strip(text) == text
    requires DecimalMagnitude(Unsigned(text)) == Some(mag)
    ensures |text| > 0 && ParseTime(text).Ok?
    ensures ParseTime(text).value == if text[0] == '-' then -mag else mag
  {
  }

  /**
   * The converse of ParseTimeDecimal and ParseTimeWhole: a colon-free field
   * that `parse_time` accepts is, once stripped, an optional sign, digits,
   * and an optional dot followed by more digits, with at least one digit.
   */
  lemma ParseTimeDecimalAccepts(v: string)
    requires ':' !in Strip(v) && ParseTime(v).Ok?
    ensures exists sign: string, w: string, f: string ::
      && (sign == "" || sign == "+" || sign == "-")
      && AllDigits(w) && AllDigits(f) && |w| + |f| > 0
      && (Strip(v) == sign + w + "." + f || (f == [] && Strip(v) == sign + w))
  {
    AcceptedHasMagnitude(v);
    SignedMagnitudeShape(Strip(v));
  }

  /** Text whose unsigned part has a magnitude is a sign, digits, and an optional dot and digits. */
  lemma SignedMagnitudeShape(t: string)
    requires DecimalMagnitude(Unsigned(t)).Some?
    ensures exists sign: string, w: string, f: string ::
      && (sign == "" || sign == "+" || sign == "-")
      && AllDigits(w) && AllDigits(f) && |w| + |f| > 0
      && (t == sign + w + "." + f || (f == [] && t == sign + w))
  {
    var sign := SignOf(t);
    var w, f := MagnitudeParts(Unsigned(t));
    if f == [] && Unsigned(t) == w {
      assert t == sign + w;
    } else {
      assert t == sign + (w + "." + f);
      assert sign + (w + "." + f) == sign + w + "." + f;
    }
  }

  /** A colon-free field `parse_time` accepts has a magnitude once stripped and unsigned. */
  lemma AcceptedHasMagnitude(v: string)
    requires ':' !in Strip(v) && ParseTime(v).Ok?
    ensures DecimalMagnitude(Unsigned(Strip(v))).Some?
  {
    StripKeeps(Strip(v));
  }

  /** Text with a magnitude is digits, or digits, a dot and digits. */
  lemma MagnitudeParts(body: string) returns (w: string, f: string)
    requires DecimalMagnitude(body).Some?
    ensures AllDigits(w) && AllDigits(f) && |w| + |f| > 0
    ensures body == w + "." + f || (f == [] && body == w)
  {
    var dot := IndexOf(body, '.');
    w := body[..dot];
    f := if dot < |body| then body[dot + 1..] else [];
    if dot < |body| {
      assert body == w + "." + f;
    } else {
      assert body == w;
    }
  }

  /** The sign `Unsigned` drops, as text: empty, `+` or `-`. */
  function SignOf(t: string): (sign: string)
    ensures sign == "" || sign == "+" || sign == "-"
    ensures t == sign + Unsigned(t)
  {
    if |t| > 0 && t[0] == '+' then "+"
    else if |t| > 0 && t[0] == '-' then "-"
    else ""
  }

  /** `w.f` is the integer part plus the fraction. */
  lemma MagnitudeOfDot(w: string, f: string)
    requires AllDigits(w) && AllDigits(f) && |w| + |f| > 0
    ensures DecimalMagnitude(w + "." + f) == Some(DecimalValue(w, f))
  {
    var body := w + "." + f;
    IndexOfDotAfterDigits(w, f);
    var dot := IndexOf(body, '.');
    var whole := body[..dot];
    var frac := if dot < |body| then body[dot + 1..] else [];
    assert whole == w && frac == f;
    assert AllDigits(whole) && AllDigits(frac) && |whole| + |frac| > 0;
  }

  /** Digits with no dot are the integer part alone. */
  lemma MagnitudeOfWhole(w: string)
    requires AllDigits(w) && |w| > 0
    ensures DecimalMagnitude(w) == Some(DigitsValue(w) as real)
  {
    assert IndexOf(w, '.') == |w|;
    assert w[..|w|] == w;
    assert DecimalValue(w, []) == DigitsValue(w) as real;
  }

  /**
   * A sign followed by digits and dots has no colon and no edge
   * whitespace, so `parse_time` hands it to `float()` unchanged.
   */
  lemma DecimalTextClean(sign: string, body: string)
    requires sign == "" || sign == "+" || sign == "-"
    requires |body| > 0 && forall k :: 0 <= k < |body| ==> IsDigit(body[k]) || body[k] == '.'
    ensures ':' !in sign + body && Strip(sign + body) == sign + body
    ensures ParseTime(sign + body) == ParseDecimal(sign + body)
  {
    var text := sign + body;
    assert forall k :: 0 <= k < |text| ==> text[k] == '+' || text[k] == '-' || IsDigit(text[k]) || text[k] == '.';
    assert text[|text| - 1] == body[|body| - 1];
    StripKeeps(text);
  }

  /** `list(map(int, parts))`: every piece parsed, the first failure raised. */
  function ParseInts(parts: seq<string>): (r: Result<seq<int>, TimeError>)
    ensures r.Ok? <==> forall i :: 0 <= i < |parts| ==> ParseInt(parts[i]).Ok?
    ensures r.Ok? ==> |r.value| == |parts|
    ensures r.Ok? ==> forall i :: 0 <= i < |parts| ==> ParseInt(parts[i]) == Ok(r.value[i])
  {
    if |parts| == 0 then Ok([])
    else
      var head :- ParseInt(parts[0]);
      var tail :- ParseInts(parts[1..]);
      Ok([head] + tail)
  }

  /**
   * `parse_time`: with a colon, three fields read as hours, minutes and
   * seconds and any other count as minutes and seconds (extra fields are
   * ignored); without a colon, a decimal number of seconds.
   */
  function ParseTime(val: string): Result<real, TimeError>
  {
    var v := Strip(val);
    if ':' in v then
      SplitOfColonString(v);
      var p :- ParseInts(Split(v));
      Ok(ColonSeconds(p) as real)
    else ParseDecimal(v)
  }

  /** Three fields are hours, minutes, seconds; any other count minutes, seconds. */
  function ColonSeconds(p: seq<int>): int
    requires |p| >= 2
  {
    if |p| == 3 then p[0] * 3600 + p[1] * 60 + p[2] else p[0] * 60 + p[1]
  }

  /**
   * A field with a colon fails exactly when one of its pieces is not an
   * integer; three pieces read as hours, minutes and seconds, and any
   * other count (at least two) as minutes and seconds, the rest ignored.
   */
  lemma ParseTimeColonFields(val: string)
    requires ':' in Strip(val)
    ensures |Split(Strip(val))| >= 2
    ensures var p := ParseInts(Split(Strip(val)));
      && (ParseTime(val).Ok? <==> p.Ok?)
      && (p.Ok? && |p.value| == 3 ==>
            ParseTime(val) == Ok((p.value[0] * 3600 + p.value[1] * 60 + p.value[2]) as real))
      && (p.Ok? && |p.value| != 3 ==>
            ParseTime(val) == Ok((p.value[0] * 60 + p.value[1]) as real))
  {
    var v := Strip(val);
    SplitOfColonString(v);
    var p := ParseInts(Split(v));
    assert ParseTime(val) == if p.Ok? then Ok(ColonSeconds(p.value) as real) else Err(p.error);
  }

  /** `parse_time` on a clean colon string whose fields all read as integers. */
  lemma ParseTimeColon(v: string, p: seq<int>)
    requires NoEdgeSpace(v) && ':' in v
    requires ParseInts(Split(v)) == Ok(p)
    ensures |p| >= 2
    ensures ParseTime(v) == Ok(ColonSeconds(p) as real)
  {
    StripKeeps(v);
    SplitOfColonString(v);
    assert ParseInts(Split(Strip(v))) == Ok(p);
  }

  /** Fields that each read as the given integers read together as them. */
  lemma {:induction false} ParseIntsOf(parts: seq<string>, values: seq<int>)
    requires |parts| == |values|
    requires forall i :: 0 <= i < |parts| ==> ParseInt(parts[i]) == Ok(values[i])
    ensures ParseInts(parts) == Ok(values)
  {
    if |parts| > 0 {
      var head := ParseInt(parts[0]);
      assert head == Ok(values[0]);
      forall i | 0 <= i < |parts| - 1
        ensures ParseInt(parts[1..][i]) == Ok(values[1..][i])
      {
        assert parts[1..][i] == parts[i + 1] && values[1..][i] == values[i + 1];
      }
      ParseIntsOf(parts[1..], values[1..]);
      assert [values[0]] + values[1..] == values;
    }
  }

  // ---------------------------------------------------------------------
  // Formatting
  // ---------------------------------------------------------------------

  /** Python's `int(x)` on a float: truncation toward zero. */
  function Trunc(x: real): (r: int)
    ensures 0.0 <= x ==> 0 <= r && r as real <= x < r as real + 1.0
    ensures x < 0.0 ==> r <= 0 && r as real - 1.0 < x <= r as real
  {
    if x >= 0.0 then x.Floor else -((-x).Floor)
  }

  lemma TruncMonotone(x: real, y: real)
    requires x <= y
    ensures Trunc(x) <= Trunc(y)
  {
  }

  /** `VideoPanel.format_time`: always `HH:MM:SS`. */
  function FormatHms(sec: real): (r: string)
    ensures |r| >= 8 && r[|r| - 6] == ':' && r[|r| - 3] == ':'
    ensures IsDigit(r[|r| - 5]) && IsDigit(r[|r| - 4]) && IsDigit(r[|r| - 2]) && IsDigit(r[|r| - 1])
  {
    var s := Trunc(sec);
    Pad2(s / 3600) + ":" + Pad2((s % 3600) / 60) + ":" + Pad2(s % 60)
  }

  /** `ControlBar.format_time`: `MM:SS` unless the hour field is positive. */
  function FormatClock(sec: real): (r: string)
    ensures |r| >= 5 && r[|r| - 3] == ':'
    ensures Trunc(sec) >= 3600 ==> |r| >= 8 && r[|r| - 6] == ':'
  {
    ClockText(Trunc(sec))
  }

  /** The text `ControlBar.format_time` shows for a whole number of seconds. */
  function ClockText(s: int): (r: string)
    ensures |r| >= 5 && r[|r| - 3] == ':'
    ensures s >= 3600 ==> |r| >= 8 && r[|r| - 6] == ':'
  {
    var h := s / 3600;
    if h > 0 then Pad2(h) + ":" + Pad2((s % 3600) / 60) + ":" + Pad2(s % 60)
    else Pad2((s % 3600) / 60) + ":" + Pad2(s % 60)
  }

  /** Hours, minutes and seconds recombine to the whole number of seconds. */
  lemma ClockArithmetic(s: int)
    ensures 0 <= (s % 3600) / 60 < 60 && 0 <= s % 60 < 60
    ensures (s / 3600) * 3600 + ((s % 3600) / 60) * 60 + s % 60 == s
  {
    var q := s / 3600;
    var r := s % 3600;
    assert s == q * 3600 + r && 0 <= r < 3600;
    var m := r / 60;
    assert r == m * 60 + r % 60 && 0 <= r % 60 < 60;
    assert s % 60 == r % 60 by {
      assert s == (q * 60 + m) * 60 + r % 60;
    }
  }

  lemma JoinTwo(a: string, b: string)
    ensures Join([a, b]) == a + ":" + b
  {
    assert [a, b][1..] == [b];
  }

  lemma JoinThree(a: string, b: string, c: string)
    ensures Join([a, b, c]) == a + ":" + b + ":" + c
  {
    assert [a, b, c][1..] == [b, c];
    JoinTwo(b, c);
    assert Join([a, b, c]) == a + ":" + (b + ":" + c);
  }

  /** Colon-joined `Pad2` fields need no stripping and split back into the fields. */
  lemma ThreeFieldText(h: int, m: int, s: int)
    ensures var v := Pad2(h) + ":" + Pad2(m) + ":" + Pad2(s);
      NoEdgeSpace(v) && ':' in v && Split(v) == [Pad2(h), Pad2(m), Pad2(s)]
  {
    var v := Pad2(h) + ":" + Pad2(m) + ":" + Pad2(s);
    Pad2Clean(h); Pad2Clean(m); Pad2Clean(s);
    assert v[0] == Pad2(h)[0];
    assert v[|v| - 1] == Pad2(s)[|Pad2(s)| - 1];
    assert v[|Pad2(h)|] == ':';
    JoinThree(Pad2(h), Pad2(m), Pad2(s));
    SplitJoin([Pad2(h), Pad2(m), Pad2(s)]);
  }

  lemma TwoFieldText(m: int, s: int)
    ensures var v := Pad2(m) + ":" + Pad2(s);
      NoEdgeSpace(v) && ':' in v && Split(v) == [Pad2(m), Pad2(s)]
  {
    var v := Pad2(m) + ":" + Pad2(s);
    Pad2Clean(m); Pad2Clean(s);
    assert v[0] == Pad2(m)[0];
    assert v[|v| - 1] == Pad2(s)[|Pad2(s)| - 1];
    assert v[|Pad2(m)|] == ':';
    JoinTwo(Pad2(m), Pad2(s));
    SplitJoin([Pad2(m), Pad2(s)]);
  }

  /** Three integer fields joined by colons read as hours, minutes and seconds. */
  lemma ParseThreeFields(h: int, m: int, s: int)
    ensures ParseTime(Pad2(h) + ":" + Pad2(m) + ":" + Pad2(s)) == Ok((h * 3600 + m * 60 + s) as real)
  {
    ThreeFieldText(h, m, s);
    ParseIntPad2(h); ParseIntPad2(m); ParseIntPad2(s);
    ParseJoinedThree(Pad2(h), Pad2(m), Pad2(s), h, m, s);
  }

  lemma ParseJoinedThree(a: string, b: string, c: string, h: int, m: int, s: int)
    requires var v := a + ":" + b + ":" + c; NoEdgeSpace(v) && ':' in v && Split(v) == [a, b, c]
    requires ParseInt(a) == Ok(h) && ParseInt(b) == Ok(m) && ParseInt(c) == Ok(s)
    ensures ParseTime(a + ":" + b + ":" + c) == Ok((h * 3600 + m * 60 + s) as real)
  {
    var p := [h, m, s];
    assert ColonSeconds(p) == h * 3600 + m * 60 + s;
    ParseIntsOf([a, b, c], p);
    ParseTimeColon(a + ":" + b + ":" + c, p);
    assert ColonSeconds(p) as real == (h * 3600 + m * 60 + s) as real;
  }

  /** Two integer fields joined by a colon read as minutes and seconds. */
  lemma ParseTwoFields(m: int, s: int)
    ensures ParseTime(Pad2(m) + ":" + Pad2(s)) == Ok((m * 60 + s) as real)
  {
    TwoFieldText(m, s);
    ParseIntPad2(m); ParseIntPad2(s);
    ParseJoinedTwo(Pad2(m), Pad2(s), m, s);
  }

  lemma ParseJoinedTwo(a: string, b: string, m: int, s: int)
    requires var v := a + ":" + b; NoEdgeSpace(v) && ':' in v && Split(v) == [a, b]
    requires ParseInt(a) == Ok(m) && ParseInt(b) == Ok(s)
    ensures ParseTime(a + ":" + b) == Ok((m * 60 + s) as real)
  {
    var p := [m, s];
    assert ColonSeconds(p) == m * 60 + s;
    ParseIntsOf([a, b], p);
    ParseTimeColon(a + ":" + b, p);
    assert ColonSeconds(p) as real == (m * 60 + s) as real;
  }

  /**
   * `VideoPanel.format_time` writes three fields; the minutes and seconds
   * fields are two digits below 60, and the three recombine to the
   * truncated time.  For non-negative times the hour field is all digits.
   */
  lemma FormatHmsFields(x: real)
    ensures var p := Split(FormatHms(x));
      && |p| == 3
      && |p[1]| == 2 && AllDigits(p[1]) && DigitsValue(p[1]) < 60
      && |p[2]| == 2 && AllDigits(p[2]) && DigitsValue(p[2]) < 60
      && ParseInt(p[0]).Ok?
      && ParseInt(p[0]).value * 3600 + DigitsValue(p[1]) * 60 + DigitsValue(p[2]) == Trunc(x)
      && (0.0 <= x ==> |p[0]| >= 2 && AllDigits(p[0]))
  {
    var s := Trunc(x);
    var h, m, sec := s / 3600, (s % 3600) / 60, s % 60;
    ClockArithmetic(s);
    Pad2Clean(h); Pad2Clean(m); Pad2Clean(sec);
    JoinThree(Pad2(h), Pad2(m), Pad2(sec));
    SplitJoin([Pad2(h), Pad2(m), Pad2(sec)]);
    ParseIntPad2(h);
    ParseDigitsPad2(m); ParseDigitsPad2(sec);
  }

  lemma ParseDigitsPad2(n: int)
    requires 0 <= n < 100
    ensures AllDigits(Pad2(n)) && DigitsValue(Pad2(n)) == n
  {
    Pad2Clean(n);
    if n < 10 {
      DigitsValueLeadingZero(ShowNat(n));
    }
  }

  /**
   * Reading back what `VideoPanel.format_time` wrote gives the truncated
   * time, for every time, negative ones included.
   */
  lemma ParseFormatHms(x: real)
    ensures ParseTime(FormatHms(x)) == Ok(Trunc(x) as real)
  {
    var s := Trunc(x);
    var h, m, sec := s / 3600, (s % 3600) / 60, s % 60;
    assert FormatHms(x) == Pad2(h) + ":" + Pad2(m) + ":" + Pad2(sec);
    ParseThreeFields(h, m, sec);
    assert h * 3600 + m * 60 + sec == s by {
      ClockArithmetic(s);
    }
  }

  /** For a non-negative time the round trip is `floor`; exact on whole seconds. */
  lemma ParseFormatHmsWhole(x: real)
    requires 0.0 <= x
    ensures ParseTime(FormatHms(x)) == Ok(x.Floor as real)
    ensures x == x.Floor as real ==> ParseTime(FormatHms(x)) == Ok(x)
  {
    ParseFormatHms(x);
  }

  /**
   * `ControlBar.format_time` writes two fields below one hour (of the
   * truncated time) and three from one hour on.
   */
  lemma FormatClockFields(x: real)
    ensures |Split(FormatClock(x))| == (if Trunc(x) < 3600 then 2 else 3)
  {
    var s := Trunc(x);
    var h, m, sec := s / 3600, (s % 3600) / 60, s % 60;
    Pad2Clean(h); Pad2Clean(m); Pad2Clean(sec);
    if h > 0 {
      JoinThree(Pad2(h), Pad2(m), Pad2(sec));
      SplitJoin([Pad2(h), Pad2(m), Pad2(sec)]);
    } else {
      JoinTwo(Pad2(m), Pad2(sec));
      SplitJoin([Pad2(m), Pad2(sec)]);
    }
  }

  /** `parse_time` reads back what `ControlBar.format_time` wrote, on non-negative times. */
  lemma ParseFormatClock(x: real)
    requires 0.0 <= x
    ensures ParseTime(FormatClock(x)) == Ok(x.Floor as real)
  {
    ParseFormatClockTrunc(x);
  }

  lemma ParseFormatClockTrunc(x: real)
    requires 0 <= Trunc(x)
    ensures ParseTime(FormatClock(x)) == Ok(Trunc(x) as real)
  {
    if Trunc(x) / 3600 > 0 {
      ParseFormatClockHours(x);
    } else {
      ParseFormatClockMinutes(x);
    }
  }

  lemma ParseFormatClockHours(x: real)
    requires Trunc(x) / 3600 > 0
    ensures ParseTime(FormatClock(x)) == Ok(Trunc(x) as real)
  {
    assert FormatClock(x) == FormatHms(x);
    ParseFormatHms(x);
  }

  lemma ParseFormatClockMinutes(x: real)
    requires 0 <= Trunc(x) < 3600
    ensures ParseTime(FormatClock(x)) == Ok(Trunc(x) as real)
  {
    ParseClockTextMinutes(Trunc(x));
  }

  lemma ParseClockTextMinutes(s: int)
    requires 0 <= s < 3600
    ensures ParseTime(ClockText(s)) == Ok(s as real)
  {
    var m, sec := (s % 3600) / 60, s % 60;
    SmallClock(s);
    assert ClockText(s) == Pad2(m) + ":" + Pad2(sec);
    ParseTwoFields(m, sec);
    assert (m * 60 + sec) as real == s as real;
  }

  /** Below one hour the hour field is zero and minutes and seconds make up the time. */
  lemma SmallClock(s: int)
    requires 0 <= s < 3600
    ensures s / 3600 == 0
    ensures ((s % 3600) / 60) * 60 + s % 60 == s
  {
    assert s % 3600 == s;
  }

  /**
   * Below zero the hour field of `ControlBar.format_time` is dropped, so
   * minus five seconds reads back as 59:55.
   */
  lemma FormatClockNegativeLosesHour()
    ensures ParseTime(FormatClock(-5.0)) == Ok(3595.0)
  {
    var s := Trunc(-5.0);
    assert s == -5;
    assert s / 3600 == -1 && (s % 3600) / 60 == 59 && s % 60 == 55;
    ParseTwoFields(59, 55);
  }
}

=== FILE: wrappers.dfy ===
/** Failure-carrying values shared by the parsers and loaders. */
module Wrappers {

  /** A value that may be absent: Python's `None`, or a file that does not exist. */
  datatype Option<+T> = None | Some(value: T)

  /** The outcome of an operation that may raise; usable with `:-`. */
  datatype Result<+T, +E> = Ok(value: T) | Err(error: E) {

    predicate IsFailure() {
      Err?
    }

    function PropagateFailure<U>(): Result<U, E>
      requires Err?
    {
      Err(error)
    }

    function Extract(): T
      requires Ok?
    {
      value
    }
  }
}
